=== FILE: README.md ===
# Letta local-LLM JSON repair and Airoboros prompt codec, in Dafny

This project models two parts of Letta's local-LLM support. It also proves properties about each.

- `letta/local_llm/json_parser.py` covers text a language model wrote when it was asked for `{"function": ..., "params": {...}}`. The `clean_json` cascade tries thirteen "patch, then parse" strategies in order and returns the first success. Its building blocks are these:
  - the backslash and underscore normalisers;
  - the brace-depth scanner `extract_first_json`;
  - two character-level repairs: `repair_json_string` escapes raw line feeds inside string literals, and `repair_even_worse_json` folds a broken `"message":` value into one quoted string;
  - the last-resort extractor `clean_and_interpret_send_message_json`.
- `letta/local_llm/llm_chat_completion_wrappers/airoboros.py` is the Airoboros 2.1 wrapper in its two variants, plain and inner monologue. Each variant renders a chat transcript and function schemas into one prompt. Each also decodes a completion back into an assistant message that holds a function call.

## Files

| file | module | models |
|---|---|---|
| `common.dfy` | `Outcomes`, `JsonValue` | Option/Result; the decoded JSON value; the JSON library as parameters |
| `text.dfy` | `Text` | Python's `in`, `str.replace`, `strip`, `rstrip`, `"".join`, `isspace`, `isalnum` |
| `normalizers.dfy` | `Normalizers` | `clean_json_string_extra_backslash`, `replace_escaped_underscores` |
| `bracket_scanner.dfy` | `BracketScanner` | `extract_first_json`, and the parse errors |
| `line_feed_repair.dfy` | `LineFeedRepair` | `repair_json_string` |
| `message_repair.dfy` | `MessageRepair` | `repair_even_worse_json` |
| `send_message_extractor.dfy` | `SendMessageExtractor` | `clean_and_interpret_send_message_json` |
| `repair_cascade.dfy` | `RepairCascade` | `clean_json` |
| `airoboros_types.dfy` | `AiroborosTypes` | wrapper settings, messages, schemas, decoded message, errors |
| `airoboros_prompt.dfy` | `AiroborosPrompt` | `chat_completion_to_prompt`, `create_function_description`, `create_function_call` |
| `airoboros_decode.dfy` | `AiroborosDecode` | `output_to_chat_completion_response`, `clean_function_args` |

## How the model is built

The source's loops become methods, written in the source's own steps. They are:
- the backslash rewrite loop;
- the brace scan;
- both character state machines;
- the strategy loop;
- the description and prompt `+=` loops.

Each method's `ensures` ties its result to a specification function. The properties the source promises are proved about those functions. The functions are also what the rest of the model uses.

The JSON library is a parameter (`JsonLibrary`):
- `loads` returns `None` where `json_loads` raises;
- `dumps` and `dumpsIndented` serialise;
- `display` is Python's `str()` of a non-string value inside an f-string.

A property that needs more of the library assumes it in a `requires`, for example that `loads` parses a given text to a given value.

Python crash paths are explicit error values, so every input has a defined outcome:
- `raw_llm_output[0]` on empty output is `OutputEmpty`;
- `"inner_thoughts" in None` is `ArgumentsUncleanable`;
- the unbound `inner_thoughts` when argument cleaning is off is `InnerThoughtsUnbound`;
- subscripting a non-dict is `NotAnObject`;
- `list.pop(key, None)` is `ArgumentsUncleanable`;
- `**` of a non-dict is `ArgumentsNotObject`;
- the role assertion is `InvalidRole`.

Some details of the code that are easy to misread:
- `repair_even_worse_json` looks for `"message":` in the join of the last ten *parts* of the output list, not the last ten characters. A flushed message is one long part.
- In message mode, an unescaped quote only toggles the string flag and is dropped, and an unescaped backslash goes straight to the output, as it does in every mode. A `}` is never buffered: it flushes the buffer. Every other character inside a string is buffered; outside a string, only letters, digits, whitespace and `.',;:!` are.
- `clean_json` raises one error when all strategies fail. It keeps no list of per-strategy failures.
- Strategies 5–7 strip whitespace at both ends and then every trailing comma.

## Model

| member | source | states |
|---|---|---|
| Text.Contains | letta/local_llm/json_parser.py:16 | `pat in s` holds exactly when `pat` occurs at some index of `s` |
| Text.ReplaceAll | letta/local_llm/json_parser.py:17 | `str.replace`: identity when the pattern does not occur; never longer when the replacement is not longer; strictly shorter when it is shorter and the pattern occurs |
| Text.ReplaceCharRemovesIt | letta/local_llm/json_parser.py:164 | replacing a character by another leaves none of it behind |
| Text.StripTrims | letta/local_llm/json_parser.py:192 | `strip()` returns the infix between a whitespace-only prefix and a whitespace-only suffix, and starts and ends with non-whitespace |
| Text.RStripChar | letta/local_llm/json_parser.py:192 | `rstrip(",")` returns a prefix, everything removed is a comma, and the result does not end in a comma |
| Text.JoinAppend | letta/local_llm/json_parser.py:179 | `"".join` of a concatenation is the concatenation of the joins |
| Normalizers.CleanJsonStringExtraBackslash | letta/local_llm/json_parser.py:9-18 | the rewrite loop ends; its result is the input with every run of backslashes squashed to one; no `\\` remains; input without `\\` comes back unchanged |
| Normalizers.SquashAbsorbsReplace | letta/local_llm/json_parser.py:16-17 | one round of replacing `\\` by `\` keeps the squashed form (the loop invariant) |
| Normalizers.SquashLeavesNoDoubleBackslash | letta/local_llm/json_parser.py:16 | the squashed form has no two consecutive backslashes, so the loop condition fails on it |
| Normalizers.SquashFixesClean | letta/local_llm/json_parser.py:16-18 | text without `\\` is its own squashed form |
| Normalizers.ContainsDoubleBackslash | letta/local_llm/json_parser.py:16 | the `"\\\\" in s` test is the absence of two adjacent backslashes, both directions |
| Normalizers.ReplaceEscapedUnderscores | letta/local_llm/json_parser.py:21-30 | input without `\_` is unchanged; the result is never longer |
| Normalizers.UnderscoreReplacementDropsEscapes | letta/local_llm/json_parser.py:30 | the replacement removes exactly the backslashes standing before an underscore and keeps every other character in order |
| Normalizers.UnderscoreReplacementNotIdempotent | letta/local_llm/json_parser.py:30 | `\\_` becomes `\_`, and a second pass turns it into `_` |
| BracketScanner.FirstClose | letta/local_llm/json_parser.py:45-47 | the first `}` that brings the depth from one to zero, at or after a position, or none |
| BracketScanner.LastOpen | letta/local_llm/json_parser.py:41-43 | the last `{` seen at depth zero before a position, which is where `start_index` points |
| BracketScanner.OpenBeforePositiveDepth | letta/local_llm/json_parser.py:47 | at a positive depth some `{` at depth zero came before, so `start_index is not None` always holds when the depth returns to zero |
| BracketScanner.ObjectSpan | letta/local_llm/json_parser.py:40-49 | a span exists exactly when some `}` closes depth one, and it is non-empty and inside the text |
| BracketScanner.ExtractFirstJsonResult | letta/local_llm/json_parser.py:37-53 | fails with "no object" exactly when no `}` brings the depth back to zero, and otherwise with "undecodable" or with the parse of a substring that starts with `{` and ends with `}` |
| BracketScanner.SpanIsBalanced | letta/local_llm/json_parser.py:37-49 | the decoded substring starts with `{`, ends with `}`, has depth zero at its end and at least one at every point inside |
| BracketScanner.DepthOfInfix | letta/local_llm/json_parser.py:40-46 | the depth inside a substring is the difference of the depths in the whole text |
| BracketScanner.ExtractFirstJson | letta/local_llm/json_parser.py:33-53 | parses exactly the first balanced object; fails with "no balanced object" exactly when no `}` closes depth one, and otherwise only with "balanced object undecodable" |
| LineFeedRepair.ScanChar | letta/local_llm/json_parser.py:119-128 | one step: the quote and backslash flag updates, then the character or its escape |
| LineFeedRepair.Step | letta/local_llm/json_parser.py:119-124 | an escaped character never toggles the string flag nor escapes the next one; only a quote toggles the flag and only a backslash escapes |
| LineFeedRepair.RepairFrom | letta/local_llm/json_parser.py:118-128 | the repaired text is never shorter than the input and at most twice as long |
| LineFeedRepair.RepairJsonString | letta/local_llm/json_parser.py:108-130 | the result is the repaired text, of length input plus the line feeds met inside strings; input without line feeds comes back unchanged |
| LineFeedRepair.RepairIdentityWithoutNewline | letta/local_llm/json_parser.py:125-128 | text with no line feed is copied unchanged |
| LineFeedRepair.RepairLength | letta/local_llm/json_parser.py:125-128 | each escaped line feed adds exactly one character; everything else is copied |
| LineFeedRepair.EscapeSemantics | letta/local_llm/json_parser.py:119-124 | `\\` cancels the escape, so a quote after it toggles the string flag; a quote after a single `\` does not |
| LineFeedRepair.RepairIdempotent | letta/local_llm/json_parser.py:118-128 | repairing twice equals repairing once, and no line feed is left inside a string |
| MessageRepair.RepairEvenWorseJson | letta/local_llm/json_parser.py:133-180 | the loop leaves its variables and output list exactly as the specified scan does, and returns the join of the emitted parts |
| MessageRepair.ScanStep | letta/local_llm/json_parser.py:150-176 | one pass of the loop body on the five variables is one step of the specified scan |
| MessageRepair.Feed | letta/local_llm/json_parser.py:150-176 | one character never removes output; the escape flag is set exactly by an unescaped backslash; only an unescaped quote toggles the string flag; entering message mode starts an empty buffer |
| MessageRepair.CopyAndWatch | letta/local_llm/json_parser.py:170-176 | outside message mode the character is appended as a part, and message mode starts exactly when the last ten parts show `"message":`, with an empty buffer |
| MessageRepair.UnchangedWithoutMessageKey | letta/local_llm/json_parser.py:149-180 | input that never contains `"message":` is returned unchanged |
| MessageRepair.PassThrough | letta/local_llm/json_parser.py:170-176 | without the key, the scan never enters message mode and emits each character as its own part |
| MessageRepair.WindowMissesKey | letta/local_llm/json_parser.py:173 | the join of the last ten one-character parts is a suffix of the text, so it cannot show a key the text lacks |
| MessageRepair.AppendsOutsideMessage | letta/local_llm/json_parser.py:150-172 | outside message mode every quote, backslash and other character is emitted as it is |
| MessageRepair.MessageModeFreezesOutput | letta/local_llm/json_parser.py:150-169 | in message mode, text without `\` and `}` emits nothing; the buffer only grows and gains no quote; so a buffer never followed by `}` is dropped |
| MessageRepair.MessageModeEmitsOnlyBackslashes | letta/local_llm/json_parser.py:155-169 | in message mode, until a `}` comes, the output gains nothing but copied backslashes |
| MessageRepair.MessageBufferGrowth | letta/local_llm/json_parser.py:161-169 | in message mode, a fragment with no quote, backslash or brace adds all of itself to the buffer inside a string, and only letters, digits, whitespace and `.',;:!` outside one |
| MessageRepair.ConsolidatesMessage | letta/local_llm/json_parser.py:162-166 | such a fragment followed by `}` emits one quoted string of the buffer with line feeds turned into spaces, then `}`, and leaves message mode |
| MessageRepair.FlushHasNoNewline | letta/local_llm/json_parser.py:164 | the flushed string literal holds no raw line feed |
| MessageRepair.FeedAllAppend | letta/local_llm/json_parser.py:149 | scanning a concatenation is scanning its parts in turn |
| SendMessageExtractor.StripNonAscii | letta/local_llm/json_parser.py:90 | the result is ASCII-only and never longer; ASCII input is unchanged |
| SendMessageExtractor.QuotedAfterSpaces | letta/local_llm/json_parser.py:93-94 | a reported group is a non-empty quote-free run between two quotes, and everything from the start index to the opening quote is whitespace |
| SendMessageExtractor.QuotedAfterSpacesComplete | letta/local_llm/json_parser.py:93-94 | any match of `\s*"([^"]+)"` at the index is the one reported, so None means the pattern does not match there |
| SendMessageExtractor.FieldMatchAt | letta/local_llm/json_parser.py:93-94 | a match at an index starts with `"key":`; after it come only whitespace, an opening quote, the non-empty quote-free group and a closing quote |
| SendMessageExtractor.FieldMatchAtComplete | letta/local_llm/json_parser.py:93-94 | `"key":` followed by a group match is exactly the match reported at that index |
| SendMessageExtractor.Leftmost | letta/local_llm/json_parser.py:93-94 | a scan finds the first index that matches, none before it matches, and it finds none only when no index matches |
| SendMessageExtractor.FirstFieldMatch | letta/local_llm/json_parser.py:93-94 | `re.search` finds the leftmost match, and none exists when it finds none |
| SendMessageExtractor.SearchField | letta/local_llm/json_parser.py:93-94 | `re.search(...).group(1)`: a group is found exactly when the pattern matches somewhere, and it is the group of the leftmost match; it is non-empty, quote-free and made of the text's characters |
| SendMessageExtractor.FunctionPatternFrom | letta/local_llm/json_parser.py:91 | the function pattern is found exactly when `"function":`, optional whitespace and `"send_message"` occur at some index |
| SendMessageExtractor.ResolveKwarg | letta/local_llm/json_parser.py:84-87 | a configured key outside the valid ones falls back to the default |
| SendMessageExtractor.CleanAndInterpretSendMessageJson | letta/local_llm/json_parser.py:80-105 | succeeds exactly when all three patterns match the ASCII-stripped text, and otherwise fails with the pattern error |
| SendMessageExtractor.ExtractedValues | letta/local_llm/json_parser.py:90-103 | a success is the `send_message` call whose inner thoughts and message are the groups of the leftmost matches in the ASCII-stripped text; both are non-empty, quote-free and ASCII |
| SendMessageExtractor.ResultKeysAreFixed | letta/local_llm/json_parser.py:96-103 | the result has keys exactly `function` and `params`, and the params keys are exactly `inner_thoughts` and `message`, whatever key the thoughts were found under |
| RepairCascade.CascadeFrom | letta/local_llm/json_parser.py:205-212 | fails exactly when every remaining strategy fails, then with the exhaustion error; otherwise returns the result of the first strategy that succeeds, all earlier ones having failed |
| RepairCascade.Attempt | letta/local_llm/json_parser.py:186-203 | each strategy fails only with an error the loop catches: the decode error for the `json_loads` strategies, the two scanner errors for the `extract_first_json` ones, the pattern error for the extractor |
| RepairCascade.Trimmed | letta/local_llm/json_parser.py:192-194 | `strip().rstrip(",")` gives a prefix of the stripped text that neither starts with whitespace nor ends with a comma |
| RepairCascade.Cascade | letta/local_llm/json_parser.py:183-212 | `clean_json` fails exactly when all thirteen strategies fail; otherwise it returns the first success in the listed order; text that parses as it is comes back parsed |
| RepairCascade.SkipFailures | letta/local_llm/json_parser.py:205-210 | a run of failing strategies can be skipped without changing the outcome |
| RepairCascade.ApplyStrategy | letta/local_llm/json_parser.py:186-203 | each strategy applies its patch (through the repair methods) and parses, as listed |
| RepairCascade.CleanJson | letta/local_llm/json_parser.py:183-212 | the strategy loop, calling the repair methods, returns exactly the cascade's outcome |
| RepairCascade.FirstSuccess | letta/local_llm/json_parser.py:205-212 | the loop stops at the first strategy that succeeds, and reports exhaustion after the last |
| AiroborosPrompt.PropertyLinesAppend | letta/local_llm/llm_chat_completion_wrappers/airoboros.py:79-81 | the property lines of a concatenation of schemas' properties are the lines of each part in turn |
| AiroborosPrompt.PropertyLinesInOrder | letta/local_llm/llm_chat_completion_wrappers/airoboros.py:79-81 | each property's line comes after all earlier properties' lines and before all later ones |
| AiroborosPrompt.DescriptionLayout | letta/local_llm/llm_chat_completion_wrappers/airoboros.py:280-292 | a description is `name:`, the description line, `params:`, the inner-thoughts line in the monologue variant, then the property lines in schema order |
| AiroborosPrompt.CreateFunctionDescription | letta/local_llm/llm_chat_completion_wrappers/airoboros.py:73-83 | the `+=` loop builds exactly that description |
| AiroborosPrompt.AppendPropertyLines | letta/local_llm/llm_chat_completion_wrappers/airoboros.py:79-81 | the property loop appends every property's line in order |
| AiroborosPrompt.MonologueCallObject | letta/local_llm/llm_chat_completion_wrappers/airoboros.py:322-328 | the call object has `function` and `params`; params hold every argument plus `inner_thoughts`, which is the content unless an argument of that name overrides it |
| AiroborosPrompt.BaseCallObject | letta/local_llm/llm_chat_completion_wrappers/airoboros.py:113-116 | the base call object has exactly `function`, holding the name, and `params`, holding the parsed arguments |
| AiroborosPrompt.CallBlock | letta/local_llm/llm_chat_completion_wrappers/airoboros.py:94-117 | arguments that do not parse fail; the base variant renders any parsed arguments, the monologue variant (lines 303-329) only an object; the block starts on a new line |
| AiroborosPrompt.RenderMessage | letta/local_llm/llm_chat_completion_wrappers/airoboros.py:124-146 | a role outside user/assistant/function/tool is rejected; a user message adds nothing unless JSON content is simplified; function and tool results render as `FUNCTION RETURN:` lines |
| AiroborosPrompt.Speaker | letta/local_llm/llm_chat_completion_wrappers/airoboros.py:340-345 | the monologue variant shows a message's stripped name in parentheses after the role; the base variant and unnamed messages show the role alone |
| AiroborosPrompt.UserText | letta/local_llm/llm_chat_completion_wrappers/airoboros.py:127-134 | content that parses as an object with a `message` field shows that field, a string without quotes; any other content shows verbatim, and None as `None` |
| AiroborosPrompt.RenderTranscript | letta/local_llm/llm_chat_completion_wrappers/airoboros.py:124-146 | the transcript renders exactly when every message does; otherwise it fails with the first failing message's error |
| AiroborosPrompt.RenderAll | letta/local_llm/llm_chat_completion_wrappers/airoboros.py:124-146 | for any rendering of single messages, the loop succeeds exactly when every message does, and otherwise fails with the first failure |
| AiroborosPrompt.RenderErrorPersists | letta/local_llm/llm_chat_completion_wrappers/airoboros.py:124-125 | once a prefix of the messages fails, the whole loop fails with that error |
| AiroborosPrompt.StartsWithSystem | letta/local_llm/llm_chat_completion_wrappers/airoboros.py:66-70 | the prompt starts with the system message's content |
| AiroborosPrompt.ClosedExtends | letta/local_llm/llm_chat_completion_wrappers/airoboros.py:148-155 | appending the response separator and cue keeps what came before |
| AiroborosPrompt.Prompt | letta/local_llm/llm_chat_completion_wrappers/airoboros.py:66-158 | a prompt is produced exactly when the first message is a system message with content and every later message renders; it starts with that content; an unknown role anywhere later rejects it |
| AiroborosPrompt.PromptLayout | letta/local_llm/llm_chat_completion_wrappers/airoboros.py:374-380 | with separators and prefix on, the prompt ends with `### INPUT`, the renderings, `### RESPONSE`, `ASSISTANT:` and the variant's tail |
| AiroborosPrompt.SuffixAfterHead | letta/local_llm/llm_chat_completion_wrappers/airoboros.py:148-155 | the response part follows the renderings directly |
| AiroborosPrompt.DefaultTails | letta/local_llm/llm_chat_completion_wrappers/airoboros.py:216-225 | by default the base prompt ends in `{`, the monologue prompt in its JSON prefix |
| AiroborosPrompt.UserMessageRendering | letta/local_llm/llm_chat_completion_wrappers/airoboros.py:339-352 | a user message shows the string `message` field of JSON object content, and the raw content when it does not parse |
| AiroborosPrompt.MonologueAssistantRendering | letta/local_llm/llm_chat_completion_wrappers/airoboros.py:353-364 | a monologue assistant message renders only its header line and the call block; the block's `inner_thoughts` is the content unless an argument overrides it |
| AiroborosPrompt.AppendDocumentation | letta/local_llm/llm_chat_completion_wrappers/airoboros.py:86-92 | the given documentation replaces the descriptions, which are otherwise appended one per schema in order |
| AiroborosPrompt.AppendTranscript | letta/local_llm/llm_chat_completion_wrappers/airoboros.py:124-146 | the message loop appends every rendering in order, or stops with the first failing message's error |
| AiroborosPrompt.ChatCompletionToPrompt | letta/local_llm/llm_chat_completion_wrappers/airoboros.py:234-382 | the source's `+=` steps produce exactly the specified prompt or error |
| AiroborosPrompt.AppendClosing | letta/local_llm/llm_chat_completion_wrappers/airoboros.py:374-380 | the closing steps append the response separator, the cue and the tail exactly as the settings ask |
| AiroborosDecode.BasePatched | letta/local_llm/llm_chat_completion_wrappers/airoboros.py:186-187 | with the brace flag on, empty output fails, and otherwise the result starts with `{`, adding one only when missing; with the flag off the output is unchanged |
| AiroborosDecode.BasePatchIdempotent | letta/local_llm/llm_chat_completion_wrappers/airoboros.py:186-187 | restoring the brace twice is restoring it once |
| AiroborosDecode.MonologuePatched | letta/local_llm/llm_chat_completion_wrappers/airoboros.py:416-418 | the result starts with the prefix; output already starting with it is unchanged, and other output gets it prepended |
| AiroborosDecode.Patched | letta/local_llm/llm_chat_completion_wrappers/airoboros.py:186-187 | only the base variant with the brace flag on can fail, and only on empty output; the monologue variant's result starts with its prefix (lines 416-419); the output is always a suffix of the result |
| AiroborosDecode.MonologuePatchIdempotent | letta/local_llm/llm_chat_completion_wrappers/airoboros.py:416-418 | restoring the prefix twice is restoring it once |
| AiroborosDecode.ReadCall | letta/local_llm/llm_chat_completion_wrappers/airoboros.py:425-434 | a non-object fails; a missing `function` or `params` fails naming the key; otherwise both fields are read, after one level of unwrapping in the monologue variant |
| AiroborosDecode.UnwrapsOneLevel | letta/local_llm/llm_chat_completion_wrappers/airoboros.py:426-430 | a `function` field holding an object is replaced by that object's own fields, once |
| AiroborosDecode.CleanFunctionArgs | letta/local_llm/llm_chat_completion_wrappers/airoboros.py:160-170 | None becomes `{}`; an object keeps every key and value except `request_heartbeat`, which is removed only for `send_message`; lists and scalars fail where Python's `copy`/`pop` would |
| AiroborosDecode.CleanFunctionArgsIdempotent | letta/local_llm/llm_chat_completion_wrappers/airoboros.py:160-170 | cleaning cleaned arguments changes nothing |
| AiroborosDecode.CleanFunctionArgsMonologue | letta/local_llm/llm_chat_completion_wrappers/airoboros.py:384-398 | also pops `inner_thoughts`, returning its value or None; the other keys and values are those of the base cleaning; None arguments fail the membership test |
| AiroborosDecode.MonologueCleaningExtendsBase | letta/local_llm/llm_chat_completion_wrappers/airoboros.py:384-398 | on objects, the monologue cleaning is the base cleaning followed by popping `inner_thoughts` |
| AiroborosDecode.Interpret | letta/local_llm/llm_chat_completion_wrappers/airoboros.py:436-451 | the message has role `assistant` and the read function name; its arguments are the serialised parameters, cleaned when cleaning is on; the base variant's content is None and the monologue variant's is the popped `inner_thoughts`; cleaning and read errors pass through; the monologue variant without cleaning fails on the unbound thoughts |
| AiroborosDecode.DecodeResponse | letta/local_llm/llm_chat_completion_wrappers/airoboros.py:172-210 | empty output with the brace flag on fails before parsing; a failed cascade is reported as such; otherwise the result is the interpretation of the cascade's parse of the patched output |
| AiroborosDecode.DecodeParsable | letta/local_llm/llm_chat_completion_wrappers/airoboros.py:186-190 | output that parses once its prefix is restored is interpreted as parsed |
| AiroborosDecode.MonologueRoundTrip | letta/local_llm/llm_chat_completion_wrappers/airoboros.py:436-451 | the call object the monologue prompt renders decodes back to the same content, name and arguments (without `request_heartbeat` for `send_message`) |
| AiroborosDecode.BaseRoundTrip | letta/local_llm/llm_chat_completion_wrappers/airoboros.py:199-210 | the call object the base prompt renders decodes back to the same name and cleaned arguments, with no content |

## Left out

- The JSON library: parsing, serialising and Python's `str()` of values are parameters. Their formats (indentation, key order, escapes) are not modelled. JSON objects are maps, so key order is lost.
- Logging: `printd`, `warnings.warn` and `print(prompt)` do not affect results and are left out.
- Exception messages: errors are kinds, not the formatted message text.
- `add_missing_heartbeat` only raises `NotImplementedError`, so it is left out.
- Schema and message dictionaries are assumed to carry the keys the code reads (`name`, `description`, `parameters.properties`, `role`, `content`, and a function call's `name` and `arguments`). A missing key there raises `KeyError` in the source and is not modelled.
- A function call's `arguments` is modelled as a string. In the source, a non-string value would make `json_loads` raise `TypeError`; the model has no such value.
- Message content is a string or None, and a message's `name` is either absent or a string. In the source, a `name` key that holds None makes `message["name"].strip()` raise `AttributeError` (airoboros.py lines 342 and 356). The model has no such message, so it does not have that crash. Other Python types in these fields are not modelled.
- MessageRepair.RepairEvenWorseJson: `isalnum` is modelled for ASCII letters and digits only. Outside a string, the model drops non-ASCII letters and digits that Python would buffer.
- SendMessageExtractor.FieldMatchAt: the inner-thoughts key is matched literally. The source inserts it into a regular expression unescaped, so the two differ only for a key that holds regular-expression metacharacters.
- RepairCascade.CleanJson: in the source, an exception other than the two caught kinds would escape the loop. The modelled strategies raise only those two kinds (see `RepairCascade.Attempt`), so the model has no such path.
- The database migration under `alembic/` is not part of this model.

=== FILE: airoboros_decode.dfy ===
/**
 * `output_to_chat_completion_response` and `clean_function_args` of both Airoboros wrappers:
 * restore the prefix the prompt already supplied, run the repair cascade, read the `function`
 * and `params` fields, clean the arguments, and build the assistant message.
 */
module AiroborosDecode {
  import opened Outcomes
  import opened JsonValue
  import opened BracketScanner
  import opened RepairCascade
  import opened AiroborosTypes
  import opened AiroborosPrompt

  const HeartbeatKey: string := "request_heartbeat"
  const SendMessageName: string := "send_message"

  /** Python's `function_name == "send_message"` for a decoded name of any JSON type. */
  predicate IsSendMessage(name: Json) {
    name == JString(SendMessageName)
  }

  // ---------------------------------------------------------------- restoring the prefix

  /** Base variant: put back the `{` the prompt ended with, unless the output already starts with one. */
  function BasePatched(braceInPrefix: bool, raw: string): (r: Result<string, CodecError>)
    ensures !braceInPrefix ==> r == Ok(raw)
    ensures braceInPrefix ==> (r.Err? <==> raw == [])
    ensures braceInPrefix && r.Ok? ==> |r.value| > 0 && r.value[0] == '{' && (r.value == raw || r.value == "{" + raw)
    ensures braceInPrefix && raw != [] && raw[0] == '{' ==> r == Ok(raw)
  {
    if braceInPrefix then
      if raw == [] then Err(OutputEmpty)
      else if raw[0] != '{' then Ok("{" + raw)
      else Ok(raw)
    else Ok(raw)
  }

  /** Monologue variant: prepend the prefix unless the output already starts with it. */
  function MonologuePatched(extra: string, raw: string): (r: string)
    ensures extra <= r
    ensures extra <= raw ==> r == raw
    ensures !(extra <= raw) ==> r == extra + raw
  {
    if extra != [] && raw[..if |extra| <= |raw| then |extra| else |raw|] != extra then extra + raw else raw
  }

  /** Restoring the prefix twice is restoring it once. */
  lemma MonologuePatchIdempotent(extra: string, raw: string)
    ensures MonologuePatched(extra, MonologuePatched(extra, raw)) == MonologuePatched(extra, raw)
  {
  }

  /** Restoring the brace twice is restoring it once. */
  lemma BasePatchIdempotent(braceInPrefix: bool, raw: string)
    requires BasePatched(braceInPrefix, raw).Ok?
    ensures BasePatched(braceInPrefix, BasePatched(braceInPrefix, raw).value) == BasePatched(braceInPrefix, raw)
  {
  }

  /** The output as handed to the cascade, or why indexing it failed. */
  function Patched(w: Wrapper, raw: string): (r: Result<string, CodecError>)
    ensures r.Err? <==> w.Airoboros21? && w.includeOpeningBraceInPrefix && raw == []
    ensures r.Err? ==> r.error == OutputEmpty
    ensures w.Airoboros21InnerMonologue? ==> w.assistantPrefixExtra <= r.value
    ensures r.Ok? ==> |raw| <= |r.value| && r.value[|r.value| - |raw|..] == raw
  {
    match w
    case Airoboros21(_, _, _, brace, _) => BasePatched(brace, raw)
    case Airoboros21InnerMonologue(_, _, _, extra, _) => Ok(MonologuePatched(extra, raw))
  }

  // ---------------------------------------------------------------- reading the call

  /**
   * The `function` and `params` fields of the parsed output. The monologue variant first replaces
   * the object by its `function` field when that field is itself an object, exactly once.
   */
  function ReadCall(w: Wrapper, j: Json): (r: Result<(Json, Json), CodecError>)
    ensures !j.JObject? ==> r == Err(NotAnObject)
    ensures j.JObject? && "function" !in j.fields ==> r == Err(MissingField("function"))
    ensures w.Airoboros21? && j.JObject? && "function" in j.fields ==>
      r == (if "params" in j.fields then Ok((j.fields["function"], j.fields["params"])) else Err(MissingField("params")))
    ensures w.Airoboros21InnerMonologue? && j.JObject? && "function" in j.fields && !j.fields["function"].JObject? ==>
      r == (if "params" in j.fields then Ok((j.fields["function"], j.fields["params"])) else Err(MissingField("params")))
    ensures r.Err? ==> r.error == NotAnObject || r.error.MissingField?
  {
    if !j.JObject? then Err(NotAnObject)
    else if "function" !in j.fields then Err(MissingField("function"))
    else
      var o := if w.Airoboros21InnerMonologue? && j.fields["function"].JObject? then j.fields["function"].fields else j.fields;
      if "function" !in o then Err(MissingField("function"))
      else if "params" !in o then Err(MissingField("params"))
      else Ok((o["function"], o["params"]))
  }

  /** The monologue variant unwraps exactly one level of nesting: the inner object's own fields are used as they are. */
  lemma UnwrapsOneLevel(w: Wrapper, inner: map<string, Json>, outerParams: Json)
    requires w.Airoboros21InnerMonologue?
    requires "function" in inner && "params" in inner
    ensures ReadCall(w, JObject(map["function" := JObject(inner), "params" := outerParams]))
      == Ok((inner["function"], inner["params"]))
  {
    var j := JObject(map["function" := JObject(inner), "params" := outerParams]);
    assert j.fields["function"] == JObject(inner);
  }

  // ---------------------------------------------------------------- cleaning the arguments

  /**
   * Base `clean_function_args`, on a copy of the arguments: None becomes an empty object, and
   * for `send_message` the `request_heartbeat` key is removed. A list survives unless `pop`
   * is called on it; other types have no `copy`.
   */
  function CleanFunctionArgs(name: Json, args: Json): (r: Result<Json, CodecError>)
    ensures args.JNull? ==> r == Ok(JObject(map[]))
    ensures args.JObject? ==> r.Ok? && r.value.JObject?
    ensures args.JObject? ==> forall k :: k in r.value.fields <==> k in args.fields && !(IsSendMessage(name) && k == HeartbeatKey)
    ensures args.JObject? ==> forall k :: k in r.value.fields ==> r.value.fields[k] == args.fields[k]
    ensures args.JArray? ==> r == (if IsSendMessage(name) then Err(ArgumentsUncleanable) else Ok(args))
    ensures args.JString? || args.JNumber? || args.JBool? ==> r == Err(ArgumentsUncleanable)
  {
    match args
    case JNull => Ok(JObject(map[]))
    case JObject(m) => Ok(JObject(if IsSendMessage(name) then m - {HeartbeatKey} else m))
    case JArray(_) => if IsSendMessage(name) then Err(ArgumentsUncleanable) else Ok(args)
    case _ => Err(ArgumentsUncleanable)
  }

  /** Cleaning is idempotent. */
  lemma CleanFunctionArgsIdempotent(name: Json, args: Json)
    requires CleanFunctionArgs(name, args).Ok?
    ensures CleanFunctionArgs(name, CleanFunctionArgs(name, args).value) == CleanFunctionArgs(name, args)
  {
    var r := CleanFunctionArgs(name, args).value;
    if args.JObject? {
      assert r.JObject?;
      var again := CleanFunctionArgs(name, r).value;
      assert again.fields.Keys == r.fields.Keys;
      assert forall k :: k in again.fields ==> again.fields[k] == r.fields[k];
      assert again.fields == r.fields;
    }
  }

  /**
   * Monologue `clean_function_args`: as the base cleaning, and in addition the `inner_thoughts`
   * argument is popped and returned (None when absent). None arguments fail the membership test,
   * and so does a list once `pop` is reached.
   */
  function CleanFunctionArgsMonologue(name: Json, args: Json): (r: Result<(Json, Json), CodecError>)
    ensures args.JNull? ==> r == Err(ArgumentsUncleanable)
    ensures args.JObject? ==> r.Ok? && r.value.1.JObject?
    ensures args.JObject? ==> r.value.0 == (if InnerThoughtsKey in args.fields then args.fields[InnerThoughtsKey] else JNull)
    ensures args.JObject? ==> forall k :: k in r.value.1.fields <==>
      k in args.fields && k != InnerThoughtsKey && !(IsSendMessage(name) && k == HeartbeatKey)
    ensures args.JObject? ==> forall k :: k in r.value.1.fields ==> r.value.1.fields[k] == args.fields[k]
    ensures args.JArray? ==> r == (if IsSendMessage(name) || JString(InnerThoughtsKey) in args.items
                                  then Err(ArgumentsUncleanable) else Ok((JNull, args)))
    ensures args.JString? || args.JNumber? || args.JBool? ==> r == Err(ArgumentsUncleanable)
  {
    match args
    case JNull => Err(ArgumentsUncleanable)
    case JObject(m) =>
      var cleaned := if IsSendMessage(name) then m - {HeartbeatKey} else m;
      if InnerThoughtsKey in m then Ok((cleaned[InnerThoughtsKey], JObject(cleaned - {InnerThoughtsKey})))
      else Ok((JNull, JObject(cleaned)))
    case JArray(items) =>
      if IsSendMessage(name) then Err(ArgumentsUncleanable)
      else if JString(InnerThoughtsKey) in items then Err(ArgumentsUncleanable)
      else Ok((JNull, args))
    case _ => Err(ArgumentsUncleanable)
  }

  /** On objects the monologue cleaning is the base cleaning followed by popping `inner_thoughts`. */
  lemma MonologueCleaningExtendsBase(name: Json, args: map<string, Json>)
    ensures var base := CleanFunctionArgs(name, JObject(args)).value.fields;
      var (thoughts, cleaned) := CleanFunctionArgsMonologue(name, JObject(args)).value;
      && cleaned == JObject(base - {InnerThoughtsKey})
      && thoughts == (if InnerThoughtsKey in base then base[InnerThoughtsKey] else JNull)
  {
    var base := CleanFunctionArgs(name, JObject(args)).value.fields;
    var cleaned := CleanFunctionArgsMonologue(name, JObject(args)).value.1;
    assert cleaned.fields.Keys == (base - {InnerThoughtsKey}).Keys;
  }

  // ---------------------------------------------------------------- the decoded message

  /** What the wrapper returns once the cascade has produced `j`. */
  function Interpret(w: Wrapper, lib: JsonLibrary, j: Json): (r: Result<AssistantMessage, CodecError>)
    ensures r.Ok? ==> r.value.role == "assistant"
    ensures r.Ok? && w.Airoboros21? ==> r.value.content == JNull
    ensures w.Airoboros21InnerMonologue? && !w.cleanFunctionArgs && ReadCall(w, j).Ok? ==> r == Err(InnerThoughtsUnbound)
    ensures ReadCall(w, j).Err? ==> r == Err(ReadCall(w, j).error)
    ensures ReadCall(w, j).Ok? && r.Ok? ==> r.value.functionCall.name == ReadCall(w, j).value.0
    ensures ReadCall(w, j).Ok? && w.Airoboros21? && !w.cleanFunctionArgs ==>
      var (name, params) := ReadCall(w, j).value;
      r == Ok(AssistantMessage("assistant", JNull, FunctionCallOut(name, lib.dumps(params))))
    ensures ReadCall(w, j).Ok? && w.Airoboros21? && w.cleanFunctionArgs ==>
      var (name, params) := ReadCall(w, j).value;
      var cleaned := CleanFunctionArgs(name, params);
      && (cleaned.Err? ==> r == Err(cleaned.error))
      && (cleaned.Ok? ==> r == Ok(AssistantMessage("assistant", JNull, FunctionCallOut(name, lib.dumps(cleaned.value)))))
    ensures ReadCall(w, j).Ok? && w.Airoboros21InnerMonologue? && w.cleanFunctionArgs ==>
      var (name, params) := ReadCall(w, j).value;
      var cleaned := CleanFunctionArgsMonologue(name, params);
      && (cleaned.Err? ==> r == Err(cleaned.error))
      && (cleaned.Ok? ==> r == Ok(AssistantMessage("assistant", cleaned.value.0, FunctionCallOut(name, lib.dumps(cleaned.value.1)))))
  {
    match ReadCall(w, j)
    case Err(e) => Err(e)
    case Ok((name, params)) =>
      if w.Airoboros21? then
        if w.cleanFunctionArgs then
          match CleanFunctionArgs(name, params)
          case Err(e) => Err(e)
          case Ok(cleaned) => Ok(AssistantMessage("assistant", JNull, FunctionCallOut(name, lib.dumps(cleaned))))
        else
          Ok(AssistantMessage("assistant", JNull, FunctionCallOut(name, lib.dumps(params))))
      else if w.cleanFunctionArgs then
        match CleanFunctionArgsMonologue(name, params)
        case Err(e) => Err(e)
        case Ok((thoughts, cleaned)) =>
          Ok(AssistantMessage("assistant", thoughts, FunctionCallOut(name, lib.dumps(cleaned))))
      else
        Err(InnerThoughtsUnbound)
  }

  /** What `output_to_chat_completion_response` returns or raises. */
  function DecodeResponse(w: Wrapper, lib: JsonLibrary, cfg: KwargConfig, raw: string): (r: Result<AssistantMessage, CodecError>)
    ensures Patched(w, raw).Ok? && Cascade(Patched(w, raw).value, lib.loads, cfg).Err? ==>
      r == Err(CascadeFailed(CascadeExhausted))
    ensures w.Airoboros21? && w.includeOpeningBraceInPrefix && raw == [] ==> r == Err(OutputEmpty)
    ensures Patched(w, raw).Ok? && Cascade(Patched(w, raw).value, lib.loads, cfg).Ok? ==>
      r == Interpret(w, lib, Cascade(Patched(w, raw).value, lib.loads, cfg).value)
  {
    match Patched(w, raw)
    case Err(e) => Err(e)
    case Ok(text) =>
      match Cascade(text, lib.loads, cfg)
      case Err(e) => Err(CascadeFailed(e))
      case Ok(j) => Interpret(w, lib, j)
  }

  /** Output that parses once its prefix is restored is interpreted as parsed: the cascade's first strategy succeeds. */
  lemma DecodeParsable(w: Wrapper, lib: JsonLibrary, cfg: KwargConfig, raw: string, j: Json)
    requires Patched(w, raw).Ok? && lib.loads(Patched(w, raw).value) == Some(j)
    ensures DecodeResponse(w, lib, cfg, raw) == Interpret(w, lib, j)
  {
    var text := Patched(w, raw).value;
    assert Attempt(Strategies[0], text, lib.loads, cfg) == Ok(j);
  }

  /**
   * Round trip of the monologue variant: the call object its prompt renders for an assistant
   * message decodes to that message again: the content comes back as `content`, the name as the
   * function name, and the arguments without `inner_thoughts` (and, for `send_message`, without
   * `request_heartbeat`).
   */
  lemma MonologueRoundTrip(w: Wrapper, lib: JsonLibrary, name: string, content: Option<string>, args: map<string, Json>)
    requires w.Airoboros21InnerMonologue? && w.cleanFunctionArgs
    requires InnerThoughtsKey !in args
    ensures var expected := if name == SendMessageName then args - {HeartbeatKey} else args;
      Interpret(w, lib, MonologueCallObject(name, ContentJson(content), args))
        == Ok(AssistantMessage("assistant", ContentJson(content), FunctionCallOut(JString(name), lib.dumps(JObject(expected)))))
  {
    var j := MonologueCallObject(name, ContentJson(content), args);
    var params := j.fields["params"];
    assert ReadCall(w, j) == Ok((JString(name), params));
    var expected := if name == SendMessageName then args - {HeartbeatKey} else args;
    var r := CleanFunctionArgsMonologue(JString(name), params).value;
    assert r.0 == ContentJson(content);
    assert r.1.fields.Keys == expected.Keys;
    assert r.1 == JObject(expected);
  }

  /**
   * Round trip of the base variant: the call object its prompt renders decodes to the same
   * function name and the cleaned arguments, with no content.
   */
  lemma BaseRoundTrip(w: Wrapper, lib: JsonLibrary, name: string, args: map<string, Json>)
    requires w.Airoboros21? && w.cleanFunctionArgs
    ensures var expected := if name == SendMessageName then args - {HeartbeatKey} else args;
      Interpret(w, lib, BaseCallObject(name, JObject(args)))
        == Ok(AssistantMessage("assistant", JNull, FunctionCallOut(JString(name), lib.dumps(JObject(expected)))))
  {
    var j := BaseCallObject(name, JObject(args));
    assert j.fields["function"] == JString(name) && j.fields["params"] == JObject(args);
    assert ReadCall(w, j) == Ok((JString(name), JObject(args)));
  }
}

=== FILE: airoboros_prompt.dfy ===
/**
 * `chat_completion_to_prompt` of both Airoboros wrappers: the system message, the instructions
 * and function descriptions, then one rendering per later message, then the response cue.
 */
module AiroborosPrompt {
  import opened Outcomes
  import opened JsonValue
  import opened Text
  import opened AiroborosTypes

  const Instructions: string :=
    "\nPlease select the most suitable function and parameters from the list of available functions below, based on the ongoing conversation. Provide your response in JSON format."
  const AvailableFunctions: string := "\nAvailable functions:"
  const InputSeparator: string := "\n### INPUT"
  const ResponseSeparator: string := "\n### RESPONSE"
  const AssistantCue: string := "\nASSISTANT:"
  const OpeningBrace: string := "\n{"
  /** The extra parameter line the inner-monologue variant documents for every function. */
  const InnerThoughtsDoc: string := "\n    inner_thoughts: Deep inner monologue private to you only."
  const InnerThoughtsKey: string := "inner_thoughts"

  // ---------------------------------------------------------------- function descriptions

  function PropertyLine(p: ParamDoc): string {
    "\n    " + p.key + ": " + p.description
  }

  /** The property lines, in schema order. */
  function PropertyLines(ps: seq<ParamDoc>): string
  {
    if ps == [] then [] else PropertyLines(ps[..|ps| - 1]) + PropertyLine(ps[|ps| - 1])
  }

  lemma {:induction false} PropertyLinesAppend(a: seq<ParamDoc>, b: seq<ParamDoc>)
    ensures PropertyLines(a + b) == PropertyLines(a) + PropertyLines(b)
    decreases |b|
  {
    if b == [] {
      assert a + b == a;
    } else {
      var init := b[..|b| - 1];
      assert (a + b)[..|a + b| - 1] == a + init;
      assert (a + b)[|a + b| - 1] == b[|b| - 1];
      PropertyLinesAppend(a, init);
      calc {
        PropertyLines(a + b);
        PropertyLines(a + init) + PropertyLine(b[|b| - 1]);
        (PropertyLines(a) + PropertyLines(init)) + PropertyLine(b[|b| - 1]);
        PropertyLines(a) + (PropertyLines(init) + PropertyLine(b[|b| - 1]));
        PropertyLines(a) + PropertyLines(b);
      }
    }
  }

  /** The first lines of a description: name, description, and the `params:` header. */
  function DescriptionHead(w: Wrapper, f: FunctionSchema): string
  {
    f.name + ":" + "\n  description: " + f.description + "\n  params:"
      + (if w.Airoboros21InnerMonologue? then InnerThoughtsDoc else "")
  }

  /** What `create_function_description` returns for one schema. */
  function FunctionDescription(w: Wrapper, f: FunctionSchema): string
  {
    DescriptionHead(w, f) + PropertyLines(f.properties)
  }

  /** Extending the property list by one entry appends that entry's line. */
  lemma PropertyLinesSnoc(ps: seq<ParamDoc>, i: nat)
    requires i < |ps|
    ensures PropertyLines(ps[..i + 1]) == PropertyLines(ps[..i]) + PropertyLine(ps[i])
  {
    assert ps[..i + 1][..i] == ps[..i];
  }

  /** Every property line comes after all earlier properties' lines and before all later ones. */
  lemma PropertyLinesInOrder(ps: seq<ParamDoc>, i: nat)
    requires i < |ps|
    ensures PropertyLines(ps) == PropertyLines(ps[..i]) + PropertyLine(ps[i]) + PropertyLines(ps[i + 1..])
  {
    PropertyLinesSnoc(ps, i);
    SplitAt(ps, i + 1);
    PropertyLinesAppend(ps[..i + 1], ps[i + 1..]);
  }

  /**
   * The description lists the head lines (with the inner-thoughts line, in the monologue variant,
   * right after `params:`), then every property's line, each after all earlier properties' lines
   * and before all later ones.
   */
  lemma DescriptionLayout(w: Wrapper, f: FunctionSchema, i: nat)
    requires i < |f.properties|
    ensures var ps := f.properties;
      FunctionDescription(w, f)
        == DescriptionHead(w, f) + PropertyLines(ps[..i]) + PropertyLine(ps[i]) + PropertyLines(ps[i + 1..])
  {
    var ps := f.properties;
    PropertyLinesInOrder(ps, i);
    var h, x, y, z := DescriptionHead(w, f), PropertyLines(ps[..i]), PropertyLine(ps[i]), PropertyLines(ps[i + 1..]);
    Assoc(h, x + y, z);
    Assoc(h, x, y);
  }

  /** The property loop of `create_function_description`: one `+=` per property, in order. */
  method AppendPropertyLines(prefix: string, ps: seq<ParamDoc>) returns (s: string)
    ensures s == prefix + PropertyLines(ps)
  {
    s := prefix;
    var i := 0;
    while i < |ps|
      invariant 0 <= i <= |ps|
      invariant s == prefix + PropertyLines(ps[..i])
    {
      PropertyLinesSnoc(ps, i);
      assert s + PropertyLine(ps[i]) == prefix + PropertyLines(ps[..i + 1]);
      s := s + PropertyLine(ps[i]);
      i := i + 1;
    }
    assert ps[..i] == ps;
  }

  /** `create_function_description`: the header lines, then one line per property, by `+=`. */
  method CreateFunctionDescription(w: Wrapper, f: FunctionSchema) returns (s: string)
    ensures s == FunctionDescription(w, f)
  {
    s := "";
    s := s + f.name + ":";
    assert s == f.name + ":";
    s := s + "\n  description: " + f.description;
    s := s + "\n  params:";
    if w.Airoboros21InnerMonologue? {
      s := s + InnerThoughtsDoc;
    } else {
      assert s == s + "";
    }
    assert s == DescriptionHead(w, f);
    s := AppendPropertyLines(s, f.properties);
  }

  /** One line per function schema, in order. */
  function FunctionsSection(w: Wrapper, fs: seq<FunctionSchema>): string
  {
    if fs == [] then [] else FunctionsSection(w, fs[..|fs| - 1]) + "\n" + FunctionDescription(w, fs[|fs| - 1])
  }

  lemma FunctionsSectionSnoc(w: Wrapper, fs: seq<FunctionSchema>, i: nat)
    requires i < |fs|
    ensures FunctionsSection(w, fs[..i + 1]) == FunctionsSection(w, fs[..i]) + "\n" + FunctionDescription(w, fs[i])
  {
    var u := fs[..i + 1];
    assert u[..|u| - 1] == fs[..i];
    assert u[|u| - 1] == fs[i];
  }

  /** The given documentation text replaces the generated descriptions. */
  function DocumentationSection(w: Wrapper, fs: seq<FunctionSchema>, documentation: Option<string>): string
  {
    match documentation
    case Some(d) => "\n" + d
    case None => FunctionsSection(w, fs)
  }

  // ---------------------------------------------------------------- messages

  /** `USER`, or in the monologue variant `USER (name)` with the name stripped when the message names its author. */
  function Speaker(w: Wrapper, base: string, m: ChatMessage): (r: string)
    ensures base <= r
    ensures r == base <==> !(w.Airoboros21InnerMonologue? && m.name.Some?)
    ensures r != base ==> r[|base|..] == " (" + Strip(m.name.value) + ")"
  {
    if w.Airoboros21InnerMonologue? && m.name.Some? then base + " (" + Strip(m.name.value) + ")" else base
  }

  /** The user text shown: the `message` field of a JSON object content, the raw content otherwise. */
  function UserText(lib: JsonLibrary, content: Option<string>): (r: string)
    ensures content.None? ==> r == "None"
    ensures content.Some? ==>
      var j := lib.loads(content.value);
      if j.Some? && j.value.JObject? && "message" in j.value.fields then
        r == Show(lib, j.value.fields["message"])
        && (j.value.fields["message"].JString? ==> r == j.value.fields["message"].s)
      else r == content.value
  {
    match content
    case None => "None"
    case Some(c) =>
      match lib.loads(c)
      case Some(JObject(fields)) => if "message" in fields then Show(lib, fields["message"]) else c
      case _ => c
  }

  /** The function-call object of the monologue variant: the message content becomes `inner_thoughts`, overridden by a same-named argument. */
  function MonologueCallObject(name: string, thoughts: Json, args: map<string, Json>): (j: Json)
    ensures j.JObject? && j.fields.Keys == {"function", "params"} && j.fields["function"] == JString(name)
    ensures var p := j.fields["params"];
      && p.JObject?
      && p.fields.Keys == args.Keys + {InnerThoughtsKey}
      && p.fields[InnerThoughtsKey] == (if InnerThoughtsKey in args then args[InnerThoughtsKey] else thoughts)
      && forall k :: k in args ==> p.fields[k] == args[k]
  {
    JObject(map["function" := JString(name), "params" := JObject(map[InnerThoughtsKey := thoughts] + args)])
  }

  /** The function-call object of the base variant. */
  function BaseCallObject(name: string, params: Json): (j: Json)
    ensures j.JObject? && j.fields.Keys == {"function", "params"}
    ensures j.fields["function"] == JString(name) && j.fields["params"] == params
  {
    JObject(map["function" := JString(name), "params" := params])
  }

  /** `create_function_call`: the call as indented JSON, on its own line. */
  function CallBlock(w: Wrapper, lib: JsonLibrary, m: ChatMessage, fc: FunctionCall): (r: Result<string, CodecError>)
    ensures lib.loads(fc.arguments).None? ==> r == Err(ArgumentsNotJson)
    ensures r.Err? ==> r.error == ArgumentsNotJson || r.error == ArgumentsNotObject
    ensures w.Airoboros21? ==> (r.Ok? <==> lib.loads(fc.arguments).Some?)
    ensures w.Airoboros21InnerMonologue? ==>
      (r.Ok? <==> lib.loads(fc.arguments).Some? && lib.loads(fc.arguments).value.JObject?)
    ensures r.Ok? ==> |r.value| > 0 && r.value[0] == '\n'
  {
    match lib.loads(fc.arguments)
    case None => Err(ArgumentsNotJson)
    case Some(args) =>
      if w.Airoboros21? then
        Ok("\n" + lib.dumpsIndented(BaseCallObject(fc.name, args)))
      else if args.JObject? then
        Ok("\n" + lib.dumpsIndented(MonologueCallObject(fc.name, ContentJson(m.content), args.fields)))
      else
        Err(ArgumentsNotObject)
  }

  /** What one message after the system message adds to the prompt. */
  function RenderMessage(w: Wrapper, lib: JsonLibrary, m: ChatMessage): (r: Result<string, CodecError>)
    ensures m.role !in ValidRoles ==> r == Err(InvalidRole(m.role))
    ensures m.role == "user" && !w.simplifyJsonContent ==> r == Ok("")
    ensures m.role in {"function", "tool"} ==> r == Ok("\nFUNCTION RETURN: " + ShowContent(m.content))
  {
    if m.role !in ValidRoles then Err(InvalidRole(m.role))
    else if m.role == "user" then
      Ok(if w.simplifyJsonContent then "\n" + Speaker(w, "USER", m) + ": " + UserText(lib, m.content) else "")
    else if m.role == "assistant" then
      var header :=
        if w.Airoboros21? then "\nASSISTANT: " + ShowContent(m.content)
        else "\n" + Speaker(w, "ASSISTANT", m) + ":";
      match m.functionCall
      case None => Ok(header)
      case Some(fc) =>
        match CallBlock(w, lib, m, fc)
        case Err(e) => Err(e)
        case Ok(block) => Ok(header + block)
    else
      Ok("\nFUNCTION RETURN: " + ShowContent(m.content))
  }

  /** The renderings of `ms` under `render`, in order, or the error of the first message that fails. */
  function RenderAll(render: ChatMessage -> Result<string, CodecError>, ms: seq<ChatMessage>): (r: Result<string, CodecError>)
    ensures r.Ok? <==> forall i :: 0 <= i < |ms| ==> render(ms[i]).Ok?
    ensures r.Err? ==> exists i ::
      && 0 <= i < |ms|
      && render(ms[i]) == Err(r.error)
      && forall k :: 0 <= k < i ==> render(ms[k]).Ok?
    decreases |ms|
  {
    if ms == [] then Ok("")
    else
      var init := ms[..|ms| - 1];
      assert forall i :: 0 <= i < |init| ==> init[i] == ms[i];
      match RenderAll(render, init)
      case Err(e) => Err(e)
      case Ok(t) =>
        match render(ms[|ms| - 1])
        case Err(e) => Err(e)
        case Ok(line) => Ok(t + line)
  }

  /** One more message: its rendering is appended, or the first error is kept. */
  lemma RenderAllSnoc(render: ChatMessage -> Result<string, CodecError>, ms: seq<ChatMessage>, k: nat)
    requires k < |ms|
    ensures var before, line := RenderAll(render, ms[..k]), render(ms[k]);
      RenderAll(render, ms[..k + 1])
        == if before.Err? then before else if line.Err? then Err(line.error) else Ok(before.value + line.value)
  {
    var u := ms[..k + 1];
    assert u[..|u| - 1] == ms[..k];
    assert u[|u| - 1] == ms[k];
  }

  /** Once a prefix of the messages fails, the whole loop fails with the same error. */
  lemma {:induction false} RenderErrorPersists(render: ChatMessage -> Result<string, CodecError>, ms: seq<ChatMessage>, n: nat)
    requires n <= |ms| && RenderAll(render, ms[..n]).Err?
    ensures RenderAll(render, ms) == RenderAll(render, ms[..n])
    decreases |ms| - n
  {
    if n < |ms| {
      RenderAllSnoc(render, ms, n);
      RenderErrorPersists(render, ms, n + 1);
    } else {
      assert ms[..n] == ms;
    }
  }

  /** The rendering function of a wrapper, as one value. */
  function Renderer(w: Wrapper, lib: JsonLibrary): ChatMessage -> Result<string, CodecError>
  {
    m => RenderMessage(w, lib, m)
  }

  /** The message loop's outcome: every rendering in order, or the error of the first message that fails. */
  function RenderTranscript(w: Wrapper, lib: JsonLibrary, ms: seq<ChatMessage>): (r: Result<string, CodecError>)
    ensures r.Ok? <==> forall i :: 0 <= i < |ms| ==> RenderMessage(w, lib, ms[i]).Ok?
    ensures r.Err? ==> exists i ::
      && 0 <= i < |ms|
      && RenderMessage(w, lib, ms[i]) == Err(r.error)
      && forall k :: 0 <= k < i ==> RenderMessage(w, lib, ms[k]).Ok?
  {
    RenderAll(Renderer(w, lib), ms)
  }

  // ---------------------------------------------------------------- the whole prompt

  /** What follows `ASSISTANT:` when the assistant prefix is on. */
  function ResponseTail(w: Wrapper): string
  {
    match w
    case Airoboros21(_, _, _, brace, _) => if brace then OpeningBrace else ""
    case Airoboros21InnerMonologue(_, _, _, extra, _) => extra
  }

  /** `p` followed by the conversation separator, when separators are on. */
  function WithInputSeparator(w: Wrapper, p: string): string
  {
    if w.includeSectionSeparators then p + InputSeparator else p
  }

  /** `p` followed by the response separator and the assistant cue, as the settings ask. */
  function Closed(w: Wrapper, p: string): string
  {
    var q := if w.includeSectionSeparators then p + ResponseSeparator else p;
    if w.includeAssistantPrefix then q + AssistantCue + ResponseTail(w) else q
  }

  /** Everything before the message renderings. */
  function Preamble(w: Wrapper, system: string, fs: seq<FunctionSchema>, documentation: Option<string>): string
  {
    WithInputSeparator(w, system + Instructions + AvailableFunctions + DocumentationSection(w, fs, documentation))
  }

  lemma PrefixExtends(a: string, p: string, b: string)
    requires a <= p
    ensures a <= p + b
  {
    assert (p + b)[..|p|] == p;
  }

  lemma ClosedExtends(w: Wrapper, a: string, p: string)
    requires a <= p
    ensures a <= Closed(w, p)
  {
    var q := if w.includeSectionSeparators then p + ResponseSeparator else p;
    if w.includeSectionSeparators {
      PrefixExtends(a, p, ResponseSeparator);
    }
    if w.includeAssistantPrefix {
      PrefixExtends(a, q, AssistantCue);
      PrefixExtends(a, q + AssistantCue, ResponseTail(w));
    }
  }

  /** The prompt starts with the system message's content. */
  lemma StartsWithSystem(w: Wrapper, system: string, fs: seq<FunctionSchema>, documentation: Option<string>, t: string)
    ensures system <= Closed(w, Preamble(w, system, fs, documentation) + t)
  {
    var p1 := system + Instructions;
    PrefixExtends(system, system, Instructions);
    PrefixExtends(system, p1, AvailableFunctions);
    var p2 := p1 + AvailableFunctions + DocumentationSection(w, fs, documentation);
    PrefixExtends(system, p1 + AvailableFunctions, DocumentationSection(w, fs, documentation));
    if w.includeSectionSeparators {
      PrefixExtends(system, p2, InputSeparator);
    }
    PrefixExtends(system, Preamble(w, system, fs, documentation), t);
    ClosedExtends(w, system, Preamble(w, system, fs, documentation) + t);
  }

  /** What `chat_completion_to_prompt` returns or raises. */
  function Prompt(w: Wrapper, lib: JsonLibrary, messages: seq<ChatMessage>, fs: seq<FunctionSchema>, documentation: Option<string>)
    : (r: Result<string, CodecError>)
    ensures r.Ok? <==>
      && |messages| > 0 && messages[0].role == "system" && messages[0].content.Some?
      && forall i :: 1 <= i < |messages| ==> RenderMessage(w, lib, messages[i]).Ok?
    ensures r.Ok? ==> messages[0].content.value <= r.value
    ensures (exists i :: 1 <= i < |messages| && messages[i].role !in ValidRoles) ==> r.Err?
  {
    if |messages| == 0 then Err(EmptyTranscript)
    else if messages[0].role != "system" then Err(FirstNotSystem)
    else if messages[0].content.None? then Err(SystemContentMissing)
    else
      var rest := messages[1..];
      assert forall i :: 1 <= i < |messages| ==> messages[i] == rest[i - 1];
      match RenderTranscript(w, lib, rest)
      case Err(e) => Err(e)
      case Ok(t) =>
        var system := messages[0].content.value;
        StartsWithSystem(w, system, fs, documentation, t);
        Ok(Closed(w, Preamble(w, system, fs, documentation) + t))
  }

  /**
   * With separators and the assistant prefix on, the prompt ends with `### INPUT`, the message
   * renderings, `### RESPONSE`, `ASSISTANT:` and the variant's tail (`{`, or the monologue prefix).
   */
  lemma PromptLayout(w: Wrapper, lib: JsonLibrary, messages: seq<ChatMessage>, fs: seq<FunctionSchema>, documentation: Option<string>)
    requires w.includeSectionSeparators && w.includeAssistantPrefix
    requires Prompt(w, lib, messages, fs, documentation).Ok?
    ensures RenderTranscript(w, lib, messages[1..]).Ok?
    ensures var p := Prompt(w, lib, messages, fs, documentation).value;
      var x := InputSeparator + RenderTranscript(w, lib, messages[1..]).value + ResponseSeparator + AssistantCue + ResponseTail(w);
      |x| <= |p| && p[|p| - |x|..] == x
  {
    PromptValue(w, lib, messages, fs, documentation);
    var t := RenderTranscript(w, lib, messages[1..]).value;
    var head := messages[0].content.value + Instructions + AvailableFunctions + DocumentationSection(w, fs, documentation);
    assert Preamble(w, messages[0].content.value, fs, documentation) == WithInputSeparator(w, head);
    SuffixAfterHead(w, head, t);
  }

  /** A produced prompt is the closed preamble followed by the renderings of the later messages. */
  lemma PromptValue(w: Wrapper, lib: JsonLibrary, messages: seq<ChatMessage>, fs: seq<FunctionSchema>, documentation: Option<string>)
    requires Prompt(w, lib, messages, fs, documentation).Ok?
    ensures |messages| > 0 && messages[0].content.Some? && RenderTranscript(w, lib, messages[1..]).Ok?
    ensures Prompt(w, lib, messages, fs, documentation).value
      == Closed(w, Preamble(w, messages[0].content.value, fs, documentation) + RenderTranscript(w, lib, messages[1..]).value)
  {
  }

  lemma SuffixAfterHead(w: Wrapper, head: string, t: string)
    requires w.includeSectionSeparators && w.includeAssistantPrefix
    ensures var p := Closed(w, WithInputSeparator(w, head) + t);
      var x := InputSeparator + t + ResponseSeparator + AssistantCue + ResponseTail(w);
      |x| <= |p| && p[|p| - |x|..] == x
  {
    var a, b, c, d, e := InputSeparator, t, ResponseSeparator, AssistantCue, ResponseTail(w);
    assert Closed(w, WithInputSeparator(w, head) + t) == head + a + b + c + d + e;
    Regroup(head, a, b, c, d, e);
    var x := a + b + c + d + e;
    assert (head + x)[|head|..] == x;
  }

  /** A left-nested concatenation after a head is the head followed by the rest. */
  lemma Regroup(h: string, a: string, b: string, c: string, d: string, e: string)
    ensures h + a + b + c + d + e == h + (a + b + c + d + e)
  {
    Assoc(h, a, b);
    Assoc(h, a + b, c);
    Assoc(h, a + b + c, d);
    Assoc(h, a + b + c + d, e);
  }

  /** With the default settings the base prompt ends in `ASSISTANT:` and `{`, the monologue prompt in its JSON prefix. */
  lemma DefaultTails()
    ensures ResponseTail(DefaultAiroboros21) == "\n{"
    ensures ResponseTail(DefaultInnerMonologue) == "\n{\n  \"function\":"
  {
  }

  /**
   * A user message whose content parses to an object with a string `message` field shows that
   * string; when the content does not parse, the raw content is shown.
   */
  lemma UserMessageRendering(w: Wrapper, lib: JsonLibrary, m: ChatMessage)
    requires m.role == "user" && w.simplifyJsonContent && m.content.Some?
    ensures var c := m.content.value;
      var shown := RenderMessage(w, lib, m).value;
      && RenderMessage(w, lib, m).Ok?
      && (lib.loads(c).None? ==> shown == "\n" + Speaker(w, "USER", m) + ": " + c)
      && (forall f, t :: lib.loads(c) == Some(JObject(f)) && "message" in f && f["message"] == JString(t)
            ==> shown == "\n" + Speaker(w, "USER", m) + ": " + t)
  {
  }

  /**
   * In the monologue variant an assistant message renders only its header line, followed by the
   * call block whose `params.inner_thoughts` holds the message content unless an argument of that
   * name overrides it.
   */
  lemma MonologueAssistantRendering(w: Wrapper, lib: JsonLibrary, m: ChatMessage, args: map<string, Json>)
    requires w.Airoboros21InnerMonologue? && m.role == "assistant"
    requires m.functionCall.Some? && lib.loads(m.functionCall.value.arguments) == Some(JObject(args))
    ensures var j := MonologueCallObject(m.functionCall.value.name, ContentJson(m.content), args);
      && RenderMessage(w, lib, m) == Ok("\n" + Speaker(w, "ASSISTANT", m) + ":" + "\n" + lib.dumpsIndented(j))
      && j.fields["params"].fields[InnerThoughtsKey]
         == (if InnerThoughtsKey in args then args[InnerThoughtsKey] else ContentJson(m.content))
  {
    var fc := m.functionCall.value;
    var j := MonologueCallObject(fc.name, ContentJson(m.content), args);
    assert CallBlock(w, lib, m, fc) == Ok("\n" + lib.dumpsIndented(j));
    var header := "\n" + Speaker(w, "ASSISTANT", m) + ":";
    assert RenderMessage(w, lib, m) == Ok(header + ("\n" + lib.dumpsIndented(j)));
    assert header + ("\n" + lib.dumpsIndented(j)) == header + "\n" + lib.dumpsIndented(j);
  }

  /** The function section of the source: the given documentation, or one description per schema. */
  method AppendDocumentation(prompt: string, w: Wrapper, fs: seq<FunctionSchema>, documentation: Option<string>)
    returns (p: string)
    ensures p == prompt + DocumentationSection(w, fs, documentation)
  {
    p := prompt;
    if documentation.Some? {
      p := p + ("\n" + documentation.value);
    } else {
      var i := 0;
      while i < |fs|
        invariant 0 <= i <= |fs|
        invariant p == prompt + FunctionsSection(w, fs[..i])
      {
        FunctionsSectionSnoc(w, fs, i);
        var description := CreateFunctionDescription(w, fs[i]);
        ghost var section := FunctionsSection(w, fs[..i]);
        Assoc(prompt, section, "\n");
        Assoc(prompt, section + "\n", description);
        p := p + "\n" + description;
        i := i + 1;
      }
      assert fs[..i] == fs;
    }
  }

  /** The message loop of the source: each message's rendering appended in order, stopping at the first failure. */
  method AppendTranscript(prompt: string, w: Wrapper, lib: JsonLibrary, ms: seq<ChatMessage>)
    returns (r: Result<string, CodecError>)
    ensures var t := RenderAll(Renderer(w, lib), ms); r == if t.Err? then Err(t.error) else Ok(prompt + t.value)
  {
    var p := prompt;
    var k := 0;
    var render := Renderer(w, lib);
    while k < |ms|
      invariant 0 <= k <= |ms|
      invariant RenderAll(render, ms[..k]).Ok?
      invariant p == prompt + RenderAll(render, ms[..k]).value
    {
      RenderAllSnoc(render, ms, k);
      var line := render(ms[k]);
      if line.Err? {
        RenderErrorPersists(render, ms, k + 1);
        return Err(line.error);
      }
      ghost var t := RenderAll(render, ms[..k]).value;
      Assoc(prompt, t, line.value);
      p := p + line.value;
      k := k + 1;
    }
    assert ms[..k] == ms;
    r := Ok(p);
  }

  /** `chat_completion_to_prompt`: the source's sequence of `+=` steps around its two loops. */
  method ChatCompletionToPrompt(w: Wrapper, lib: JsonLibrary, messages: seq<ChatMessage>, fs: seq<FunctionSchema>, documentation: Option<string>)
    returns (r: Result<string, CodecError>)
    ensures r == Prompt(w, lib, messages, fs, documentation)
  {
    if |messages| == 0 {
      return Err(EmptyTranscript);
    }
    if messages[0].role != "system" {
      return Err(FirstNotSystem);
    }
    if messages[0].content.None? {
      return Err(SystemContentMissing);
    }
    var prompt := messages[0].content.value;
    prompt := prompt + Instructions;
    prompt := prompt + AvailableFunctions;
    prompt := AppendDocumentation(prompt, w, fs, documentation);
    if w.includeSectionSeparators {
      prompt := prompt + InputSeparator;
    }
    var body := AppendTranscript(prompt, w, lib, messages[1..]);
    if body.Err? {
      return body;
    }
    prompt := AppendClosing(body.value, w);
    r := Ok(prompt);
  }

  /** The closing steps of the source: the response separator, the assistant cue and the variant's tail. */
  method AppendClosing(prompt: string, w: Wrapper) returns (p: string)
    ensures p == Closed(w, prompt)
  {
    p := prompt;
    if w.includeSectionSeparators {
      p := p + ResponseSeparator;
    }
    if w.includeAssistantPrefix {
      p := p + AssistantCue;
      match w {
        case Airoboros21(_, _, _, brace, _) =>
          if brace {
            p := p + OpeningBrace;
          } else {
            assert p == p + ResponseTail(w);
          }
        case Airoboros21InnerMonologue(_, _, _, extra, _) =>
          if extra != [] {
            p := p + extra;
          } else {
            assert p == p + ResponseTail(w);
          }
      }
    }
  }
}

=== FILE: airoboros_types.dfy ===
/**
 * The Airoboros 2.1 chat-completion wrappers: their read-only configuration, the chat messages
 * and function schemas they render, the assistant message they decode, and the ways either
 * direction fails.
 */
module AiroborosTypes {
  import opened Outcomes
  import opened JsonValue
  import opened BracketScanner

  /**
   * The two wrapper classes. Their constructors only store these flags; no method changes them.
   * The inner-monologue variant replaces the opening-brace flag by a free-form prefix.
   */
  datatype Wrapper =
    | Airoboros21(
        simplifyJsonContent: bool,
        cleanFunctionArgs: bool,
        includeAssistantPrefix: bool,
        includeOpeningBraceInPrefix: bool,
        includeSectionSeparators: bool)
    | Airoboros21InnerMonologue(
        simplifyJsonContent: bool,
        cleanFunctionArgs: bool,
        includeAssistantPrefix: bool,
        assistantPrefixExtra: string,
        includeSectionSeparators: bool)

  /** The inner-monologue variant's default prefix: the start of the JSON object it expects. */
  const DefaultPrefixExtra: string := "\n{\n  \"function\":"

  const DefaultAiroboros21 := Airoboros21(true, true, true, true, true)
  const DefaultInnerMonologue := Airoboros21InnerMonologue(true, true, true, DefaultPrefixExtra, true)

  /** `message["function_call"]`: the function name and its arguments as JSON text. */
  datatype FunctionCall = FunctionCall(name: string, arguments: string)

  /**
   * One chat message. `content` is None when the message holds Python's None; `name` is present
   * only when the message has a `name` key; `functionCall` is None when the key is absent or empty.
   */
  datatype ChatMessage = ChatMessage(
    role: string,
    content: Option<string>,
    name: Option<string>,
    functionCall: Option<FunctionCall>)

  /** One entry of `parameters.properties` in a function schema, in the schema's order. */
  datatype ParamDoc = ParamDoc(key: string, description: string)

  datatype FunctionSchema = FunctionSchema(name: string, description: string, properties: seq<ParamDoc>)

  /** The function call of a decoded response; `arguments` is the serialised parameters. */
  datatype FunctionCallOut = FunctionCallOut(name: Json, arguments: string)

  /** The decoded response message; `content` is JNull where the source stores None. */
  datatype AssistantMessage = AssistantMessage(role: string, content: Json, functionCall: FunctionCallOut)

  /** Why rendering a prompt or decoding a response fails. */
  datatype CodecError =
    | EmptyTranscript               // `messages[0]` on an empty list
    | FirstNotSystem                // the first message is not the system message
    | SystemContentMissing          // the system message's content is None
    | InvalidRole(role: string)     // a later message has a role outside user/assistant/function/tool
    | ArgumentsNotJson              // a function call's arguments do not parse
    | ArgumentsNotObject            // monologue variant: the parsed arguments cannot be unpacked as a dict
    | OutputEmpty                   // `raw_llm_output[0]` on empty output
    | CascadeFailed(cause: ParseError) // `clean_json` raised
    | NotAnObject                   // the parsed output cannot be indexed by a key
    | MissingField(key: string)     // the parsed object lacks `function` or `params`
    | ArgumentsUncleanable          // the parameters have no `copy`, or a list meets `pop`/`in`
    | InnerThoughtsUnbound          // monologue variant with argument cleaning switched off

  /** The role values a message after the first may carry. */
  const ValidRoles: set<string> := {"user", "assistant", "function", "tool"}

  /** The Python text of a Json value given to an f-string: a string as it is, anything else via `display`. */
  function Show(lib: JsonLibrary, j: Json): string
  {
    if j.JString? then j.s else lib.display(j)
  }

  /** The Python text of a string-or-None given to an f-string. */
  function ShowContent(c: Option<string>): string
  {
    match c
    case Some(s) => s
    case None => "None"
  }

  /** A string-or-None as the Json value it becomes inside a dict. */
  function ContentJson(c: Option<string>): Json
  {
    match c
    case Some(s) => JString(s)
    case None => JNull
  }
}

=== FILE: bracket_scanner.dfy ===
/**
 * `extract_first_json`: scan for the first `{` ... `}` whose braces balance, then decode exactly
 * that substring. Handles output holding two JSON objects back to back.
 */
module BracketScanner {
  import opened Outcomes
  import opened JsonValue

  /** Why a strategy of the repair cascade failed. */
  datatype ParseError =
    | JsonDecodeError          // `json_loads` rejected the text
    | NoBalancedObject         // no `}` brings the brace depth back to zero
    | BalancedObjectUndecodable // the balanced substring does not decode
    | SendMessagePatternMissing // the heuristic extractor found no match
    | CascadeExhausted         // every strategy failed

  /** `json_loads` as a Result. */
  function Loads(loads: string -> Option<Json>, text: string): Result<Json, ParseError>
  {
    match loads(text)
    case Some(j) => Ok(j)
    case None => Err(JsonDecodeError)
  }

  /** Brace depth after scanning `s[..i]`: each `{` adds one, each `}` takes one away (it may go negative). */
  function Depth(s: string, i: nat): int
    requires i <= |s|
  {
    if i == 0 then 0
    else Depth(s, i - 1) + (if s[i - 1] == '{' then 1 else if s[i - 1] == '}' then -1 else 0)
  }

  /** `s[i]` is a `}` that brings the depth from one back to zero. */
  predicate ClosesAt(s: string, i: nat) {
    i < |s| && s[i] == '}' && Depth(s, i) == 1
  }

  /** `s[j]` is a `{` met at depth zero, where a candidate object starts. */
  predicate OpensAt(s: string, j: nat) {
    j < |s| && s[j] == '{' && Depth(s, j) == 0
  }

  /** The first closing position at or after `from`. */
  function FirstClose(s: string, from: nat): (r: Option<nat>)
    requires from <= |s|
    ensures r.Some? ==> from <= r.value < |s| && ClosesAt(s, r.value)
    ensures r.Some? ==> forall k :: from <= k < r.value ==> !ClosesAt(s, k)
    ensures r.None? ==> forall k :: from <= k < |s| ==> !ClosesAt(s, k)
    decreases |s| - from
  {
    if from == |s| then None
    else if ClosesAt(s, from) then Some(from)
    else FirstClose(s, from + 1)
  }

  /** The last opening position before `k`. */
  function LastOpen(s: string, k: nat): (r: Option<nat>)
    requires k <= |s|
    ensures r.Some? ==> r.value < k && OpensAt(s, r.value)
    ensures r.Some? ==> forall j :: r.value < j < k ==> !OpensAt(s, j)
    ensures r.None? ==> forall j :: 0 <= j < k ==> !OpensAt(s, j)
  {
    if k == 0 then None
    else if OpensAt(s, k - 1) then Some(k - 1)
    else LastOpen(s, k - 1)
  }

  /** While the depth is positive, some `{` at depth zero came before. */
  lemma {:induction false} OpenBeforePositiveDepth(s: string, k: nat)
    requires k <= |s| && Depth(s, k) >= 1
    ensures LastOpen(s, k).Some?
  {
    if k > 0 && !OpensAt(s, k - 1) {
      OpenBeforePositiveDepth(s, k - 1);
    }
  }

  /** The `[start, end)` span of the first balanced object, if any. */
  function ObjectSpan(s: string): (r: Option<(nat, nat)>)
    ensures r.Some? <==> FirstClose(s, 0).Some?
    ensures r.Some? ==> r.value.0 < r.value.1 <= |s|
  {
    match FirstClose(s, 0)
    case None => None
    case Some(i) =>
      OpenBeforePositiveDepth(s, i);
      Some((LastOpen(s, i).value, i + 1))
  }

  /** What `extract_first_json` returns or raises. */
  function ExtractFirstJsonResult(s: string, loads: string -> Option<Json>): (r: Result<Json, ParseError>)
    ensures r.Err? ==> r.error == NoBalancedObject || r.error == BalancedObjectUndecodable
    ensures r == Err(NoBalancedObject) <==> forall k :: 0 <= k < |s| ==> !ClosesAt(s, k)
    ensures r.Ok? ==> exists a, b :: 0 <= a < b <= |s| && s[a] == '{' && s[b - 1] == '}' && loads(s[a..b]) == Some(r.value)
  {
    match ObjectSpan(s)
    case None => Err(NoBalancedObject)
    case Some((a, b)) =>
      SpanIsBalanced(s);
      match loads(s[a..b])
      case Some(j) => Ok(j)
      case None => Err(BalancedObjectUndecodable)
  }

  /** Depth inside an infix is the difference of the depths in the whole. */
  lemma {:induction false} DepthOfInfix(s: string, a: nat, b: nat, k: nat)
    requires a <= b <= |s| && k <= b - a
    ensures Depth(s[a..b], k) == Depth(s, a + k) - Depth(s, a)
  {
    if k > 0 {
      DepthOfInfix(s, a, b, k - 1);
      assert s[a..b][k - 1] == s[a + k - 1];
    }
  }

  /** Between the opener and the first closer, the depth stays at least one. */
  lemma {:induction false} DepthPositiveBeforeClose(s: string, a: nat, i: nat, k: nat)
    requires OpensAt(s, a) && a < k <= i < |s|
    requires forall m :: 0 <= m < i ==> !ClosesAt(s, m)
    ensures Depth(s, k) >= 1
    decreases k
  {
    if k == a + 1 {
    } else {
      DepthPositiveBeforeClose(s, a, i, k - 1);
      assert !ClosesAt(s, k - 1);
    }
  }

  /**
   * The substring handed to the decoder starts with `{`, ends with `}`, and has balanced braces:
   * its depth is zero at its end and at least one at every point strictly inside it.
   */
  lemma SpanIsBalanced(s: string)
    requires ObjectSpan(s).Some?
    ensures var (a, b) := ObjectSpan(s).value;
      && s[a] == '{' && s[b - 1] == '}'
      && Depth(s[a..b], b - a) == 0
      && forall k :: 0 < k < b - a ==> Depth(s[a..b], k) >= 1
  {
    var i := FirstClose(s, 0).value;
    OpenBeforePositiveDepth(s, i);
    var a := LastOpen(s, i).value;
    var b := i + 1;
    assert ObjectSpan(s).value == (a, b);
    assert Depth(s, b) == 0;
    DepthOfInfix(s, a, b, b - a);
    forall k | 0 < k < b - a ensures Depth(s[a..b], k) >= 1 {
      DepthOfInfix(s, a, b, k);
      DepthPositiveBeforeClose(s, a, i, a + k);
    }
  }

  /**
   * `extract_first_json`, as the source writes it: one pass keeping `depth` and `start_index`,
   * returning at the first `}` that brings the depth back to zero.
   */
  method ExtractFirstJson(s: string, loads: string -> Option<Json>) returns (r: Result<Json, ParseError>)
    ensures r == ExtractFirstJsonResult(s, loads)
    ensures r.Err? ==> r.error == NoBalancedObject || r.error == BalancedObjectUndecodable
    ensures r.Err? && r.error == NoBalancedObject <==> forall k :: 0 <= k < |s| ==> !ClosesAt(s, k)
  {
    var depth := 0;
    var start: Option<nat> := None;
    var i := 0;
    while i < |s|
      invariant 0 <= i <= |s|
      invariant depth == Depth(s, i)
      invariant start == LastOpen(s, i)
      invariant forall k :: 0 <= k < i ==> !ClosesAt(s, k)
    {
      var c := s[i];
      if c == '{' {
        if depth == 0 {
          start := Some(i);
        }
        depth := depth + 1;
      } else if c == '}' {
        depth := depth - 1;
        if depth == 0 {
          // The source also tests `start_index is not None`; a positive depth guarantees it.
          OpenBeforePositiveDepth(s, i);
          assert FirstClose(s, 0) == Some(i) by {
            assert ClosesAt(s, i);
          }
          var a := start.value;
          var candidate := s[a..i + 1];
          match loads(candidate) {
            case Some(j) => r := Ok(j);
            case None => r := Err(BalancedObjectUndecodable);
          }
          return;
        }
      }
      assert Depth(s, i + 1) == depth;
      assert !ClosesAt(s, i);
      i := i + 1;
    }
    r := Err(NoBalancedObject);
  }
}

=== FILE: common.dfy ===
/** Failure-compatible Option and Result, and the JSON value the parser produces. */
module Outcomes {

  datatype Option<+T> = None | Some(value: T)

  /** A value or an error; usable with `:-`. */
  datatype Result<+T, +E> = Ok(value: T) | Err(error: E) {
    predicate IsFailure() {
      Err?
    }

    function PropagateFailure<U>(): Result<U, E>
      requires Err?
    {
      Err(error)
    }

    function Extract(): T
      requires Ok?
    {
      value
    }
  }
}

module JsonValue {
  import opened Outcomes

  /** A decoded JSON document. Numbers keep their literal text; objects are maps, so key order is not modelled. */
  datatype Json =
    | JNull
    | JBool(b: bool)
    | JNumber(literal: string)
    | JString(s: string)
    | JArray(items: seq<Json>)
    | JObject(fields: map<string, Json>)

  /**
   * The JSON library the code calls into, as parameters:
   * `loads` is `json_loads` (None where it raises JSONDecodeError),
   * `dumps` is `json_dumps`, `dumpsIndented` is `json_dumps(..., indent=2)`,
   * `display` is Python's `str()` of a decoded non-string value inside an f-string.
   */
  datatype JsonLibrary = JsonLibrary(
    loads: string -> Option<Json>,
    dumps: Json -> string,
    dumpsIndented: Json -> string,
    display: Json -> string)
}

=== FILE: line_feed_repair.dfy ===
/**
 * `repair_json_string`: one pass that escapes raw line feeds met inside string literals
 * (section 7 of RFC 8259 forbids unescaped control characters in JSON strings).
 */
module LineFeedRepair {

  /** The two flags of the scan: inside a string literal, and the previous character escapes this one. */
  datatype ScanFlags = ScanFlags(inString: bool, escape: bool)

  const Start := ScanFlags(false, false)

  /** The flag update for one character: a quote toggles `inString` unless escaped; a backslash escapes unless itself escaped. */
  function Step(f: ScanFlags, c: char): (g: ScanFlags)
    ensures f.escape ==> !g.escape && g.inString == f.inString
    ensures c != '"' ==> g.inString == f.inString
    ensures c != '\\' ==> !g.escape
  {
    ScanFlags(
      if c == '"' && !f.escape then !f.inString else f.inString,
      c == '\\' && !f.escape)
  }

  /** Flags after scanning all of `s` from `f`. */
  function ScanFrom(f: ScanFlags, s: string): ScanFlags
    decreases |s|
  {
    if s == [] then f else ScanFrom(Step(f, s[0]), s[1..])
  }

  /** What the scan writes for `c`, given the flags after reading it. */
  function Emit(after: ScanFlags, c: char): string
  {
    if c == '\n' && after.inString then "\\n" else [c]
  }

  /** The text `repair_json_string` builds from `s` when its scan starts with flags `f`. */
  function RepairFrom(f: ScanFlags, s: string): (r: string)
    ensures |s| <= |r| <= 2 * |s|
    decreases |s|
  {
    if s == [] then []
    else
      var g := Step(f, s[0]);
      Emit(g, s[0]) + RepairFrom(g, s[1..])
  }

  function Repaired(s: string): string
  {
    RepairFrom(Start, s)
  }

  /** Number of line feeds the scan meets inside a string literal. */
  function NewlinesInStrings(f: ScanFlags, s: string): nat
    decreases |s|
  {
    if s == [] then 0
    else
      var g := Step(f, s[0]);
      (if s[0] == '\n' && g.inString then 1 else 0) + NewlinesInStrings(g, s[1..])
  }

  /** Text with no line feed comes back unchanged. */
  lemma {:induction false} RepairIdentityWithoutNewline(f: ScanFlags, s: string)
    requires '\n' !in s
    ensures RepairFrom(f, s) == s
    decreases |s|
  {
    if s != [] {
      RepairIdentityWithoutNewline(Step(f, s[0]), s[1..]);
    }
  }

  /** Each escaped line feed adds exactly one character; everything else is copied. */
  lemma {:induction false} RepairLength(f: ScanFlags, s: string)
    ensures |RepairFrom(f, s)| == |s| + NewlinesInStrings(f, s)
    decreases |s|
  {
    if s != [] {
      RepairLength(Step(f, s[0]), s[1..]);
    }
  }

  /** Escape handling: `\\` cancels itself, so a quote after it toggles; a quote after a single `\` does not. */
  lemma EscapeSemantics(f: ScanFlags)
    requires !f.escape
    ensures ScanFrom(f, "\\\\").escape == false
    ensures ScanFrom(f, "\\\\\"").inString == !f.inString
    ensures ScanFrom(f, "\\\"").inString == f.inString
  {
    var b := Step(f, '\\');
    assert b.escape && b.inString == f.inString;
    var bb := Step(b, '\\');
    assert !bb.escape && bb.inString == f.inString;
    assert ScanFrom(f, "\\\\") == ScanFrom(b, "\\") == ScanFrom(bb, "");
    assert ScanFrom(f, "\\\\\"") == ScanFrom(b, "\\\"") == ScanFrom(bb, "\"") == ScanFrom(Step(bb, '"'), "");
    assert ScanFrom(f, "\\\"") == ScanFrom(b, "\"") == ScanFrom(Step(b, '"'), "");
  }

  /** Every line feed left in the output lies outside a string literal, judged by the same scan. */
  predicate NoNewlineInStrings(f: ScanFlags, t: string)
  {
    NewlinesInStrings(f, t) == 0
  }

  /**
   * Repairing twice is repairing once: an inserted `\n` pair leaves the scan in the flags the raw
   * line feed would have left it in, and the line feeds that remain lie outside strings.
   */
  lemma {:induction false} RepairIdempotent(f: ScanFlags, s: string)
    ensures RepairFrom(f, RepairFrom(f, s)) == RepairFrom(f, s)
    ensures NoNewlineInStrings(f, RepairFrom(f, s))
    decreases |s|
  {
    if s != [] {
      var g := Step(f, s[0]);
      var rest := RepairFrom(g, s[1..]);
      RepairIdempotent(g, s[1..]);
      if s[0] == '\n' && g.inString {
        var out := "\\n" + rest;
        assert RepairFrom(f, s) == out;
        var h := Step(f, '\\');
        assert Step(h, 'n') == g;
        assert out[1..][1..] == rest;
        assert RepairFrom(f, out) == "\\" + RepairFrom(h, out[1..]);
        assert RepairFrom(h, out[1..]) == "n" + RepairFrom(g, rest);
        assert NewlinesInStrings(f, out) == NewlinesInStrings(h, out[1..]);
      } else {
        var out := [s[0]] + rest;
        assert RepairFrom(f, s) == out;
        assert out[1..] == rest;
      }
    }
  }

  /** One step of the scan over a suffix. */
  lemma RepairSuffixStep(f: ScanFlags, s: string, i: nat)
    requires i < |s|
    ensures RepairFrom(f, s[i..]) == Emit(Step(f, s[i]), s[i]) + RepairFrom(Step(f, s[i]), s[i + 1..])
  {
    assert s[i..][0] == s[i] && s[i..][1..] == s[i + 1..];
  }

  /** The body of the source's loop for one character: update the flags, then write the character or its escape. */
  method ScanChar(inString: bool, escape: bool, c: char) returns (inString': bool, escape': bool, out: string)
    ensures ScanFlags(inString', escape') == Step(ScanFlags(inString, escape), c)
    ensures out == Emit(ScanFlags(inString', escape'), c)
  {
    inString', escape' := inString, escape;
    if c == '"' && !escape' {
      inString' := !inString';
    }
    if c == '\\' && !escape' {
      escape' := true;
    } else {
      escape' := false;
    }
    if c == '\n' && inString' {
      out := "\\n";
    } else {
      out := [c];
    }
  }

  /** `repair_json_string`: the source's loop over the characters, appending to `new_string`. */
  method RepairJsonString(s: string) returns (r: string)
    ensures r == Repaired(s)
    ensures |r| == |s| + NewlinesInStrings(Start, s)
    ensures '\n' !in s ==> r == s
  {
    r := "";
    var inString := false;
    var escape := false;
    var i := 0;
    while i < |s|
      invariant 0 <= i <= |s|
      invariant r + RepairFrom(ScanFlags(inString, escape), s[i..]) == Repaired(s)
    {
      RepairSuffixStep(ScanFlags(inString, escape), s, i);
      var out;
      inString, escape, out := ScanChar(inString, escape, s[i]);
      r := r + out;
      i := i + 1;
    }
    assert s[|s|..] == [];
    RepairLength(Start, s);
    if '\n' !in s {
      RepairIdentityWithoutNewline(Start, s);
    }
  }
}

=== FILE: message_repair.dfy ===
/**
 * `repair_even_worse_json`: once the output so far shows `"message":`, gather the following
 * fragments into one buffer and, at the next `}`, write them back as a single quoted string.
 */
module MessageRepair {
  import opened Text

  const MessageKey: string := "\"message\":"
  /** Punctuation kept in the buffer outside a string, besides letters, digits and whitespace. */
  const KeptPunctuation: string := ".',;:!"
  /** How many trailing output parts are searched for `MessageKey`. */
  const Window: nat := 10

  /**
   * The scan's variables: the three flags, the `message_content` buffer and the list
   * `new_json_parts` (mostly single characters; a flushed message is one longer part).
   */
  datatype RepairState = RepairState(
    inMessage: bool,
    inString: bool,
    escape: bool,
    messageContent: string,
    parts: seq<string>)

  const Initial := RepairState(false, false, false, [], [])

  /** Characters the buffer keeps in message mode. */
  predicate Buffered(inString: bool, c: char) {
    inString || IsAlnum(c) || IsSpace(c) || c in KeptPunctuation
  }

  /** Python's `parts[-10:]`. */
  function LastParts(parts: seq<string>): seq<string> {
    if |parts| <= Window then parts else parts[|parts| - Window..]
  }

  /** The buffer written back as one quoted string, line feeds turned into spaces. */
  function Flush(content: string): string {
    "\"" + ReplaceAll(content, "\n", " ") + "\""
  }

  /** One character of the scan. */
  function Feed(st: RepairState, c: char): (r: RepairState)
    ensures st.parts <= r.parts
    ensures r.escape <==> c == '\\' && !st.escape
    ensures r.inString == (if c == '"' && !st.escape then !st.inString else st.inString)
    ensures r.inMessage && !st.inMessage ==> r.messageContent == []
  {
    if c == '"' && !st.escape then
      st.(inString := !st.inString, parts := if st.inMessage then st.parts else st.parts + [[c]])
    else if c == '\\' && !st.escape then
      st.(escape := true, parts := st.parts + [[c]])
    else if st.inMessage then
      if c == '}' then
        st.(escape := false, inMessage := false, parts := st.parts + [Flush(st.messageContent), "}"])
      else if Buffered(st.inString, c) then
        st.(escape := false, messageContent := st.messageContent + [c])
      else
        st.(escape := false)
    else
      CopyAndWatch(st, c)
  }

  /** Outside message mode: copy `c`, and enter message mode once the last parts show the key. */
  function CopyAndWatch(st: RepairState, c: char): (r: RepairState)
    ensures r.parts == st.parts + [[c]]
    ensures r.inMessage <==> st.inMessage || Contains(Join(LastParts(r.parts)), MessageKey)
    ensures r.inMessage && !st.inMessage ==> r.messageContent == []
    ensures !r.escape && r.inString == st.inString
  {
    var parts := st.parts + [[c]];
    if Contains(Join(LastParts(parts)), MessageKey) then
      st.(escape := false, parts := parts, inMessage := true, messageContent := [])
    else
      st.(escape := false, parts := parts)
  }

  /** The scan over all of `s`, starting from `st`. */
  function FeedAll(st: RepairState, s: string): RepairState
    decreases |s|
  {
    if s == [] then st else Feed(FeedAll(st, s[..|s| - 1]), s[|s| - 1])
  }

  /** What `repair_even_worse_json` returns. */
  function RepairedEvenWorse(s: string): string {
    Join(FeedAll(Initial, s).parts)
  }

  lemma {:induction false} FeedAllAppend(st: RepairState, a: string, b: string)
    ensures FeedAll(st, a + b) == FeedAll(FeedAll(st, a), b)
    decreases |b|
  {
    if b == [] {
      assert a + b == a;
    } else {
      assert (a + b)[..|a + b| - 1] == a + b[..|b| - 1];
      assert (a + b)[|a + b| - 1] == b[|b| - 1];
      FeedAllAppend(st, a, b[..|b| - 1]);
    }
  }

  /** Outside message mode, every quote, backslash and other character goes to the output as it is. */
  lemma AppendsOutsideMessage(st: RepairState, c: char)
    requires !st.inMessage
    ensures Feed(st, c).parts == st.parts + [[c]]
  {
  }

  /** Each character of `s` as a part of its own. */
  function Singletons(s: string): (ps: seq<string>)
    ensures |ps| == |s| && forall i :: 0 <= i < |s| ==> ps[i] == [s[i]]
  {
    seq(|s|, i requires 0 <= i < |s| => [s[i]])
  }

  lemma {:induction false} JoinSingletons(s: string)
    ensures Join(Singletons(s)) == s
    decreases |s|
  {
    if s != [] {
      var p := s[..|s| - 1];
      assert Singletons(s)[..|s| - 1] == Singletons(p);
      JoinSingletons(p);
      assert s == p + [s[|s| - 1]];
    }
  }

  /** The searched window over one-character parts is a suffix of the text, so it misses a key the text misses. */
  lemma WindowMissesKey(s: string)
    requires !Contains(s, MessageKey)
    ensures !Contains(Join(LastParts(Singletons(s))), MessageKey)
  {
    var k := if |s| <= Window then 0 else |s| - Window;
    assert Join(LastParts(Singletons(s))) == s[k..] by {
      var ps := Singletons(s);
      assert LastParts(ps) == ps[k..];
      assert |ps[k..]| == |s[k..]|;
      forall i | 0 <= i < |s| - k
        ensures ps[k..][i] == Singletons(s[k..])[i]
      {
      }
      assert ps[k..] == Singletons(s[k..]);
      JoinSingletons(s[k..]);
    }
    if Contains(s[k..], MessageKey) {
      OccursInInfix(s, k, |s|, MessageKey);
    }
  }

  lemma SingletonsSnoc(s: string)
    requires s != []
    ensures Singletons(s) == Singletons(s[..|s| - 1]) + [[s[|s| - 1]]]
  {
  }

  /** One step of `PassThrough`: outside message mode, a character that does not complete the key is copied. */
  lemma PassThroughStep(st: RepairState, s: string)
    requires s != [] && !Contains(s, MessageKey)
    requires !st.inMessage && st.parts == Singletons(s[..|s| - 1])
    ensures !Feed(st, s[|s| - 1]).inMessage
    ensures Feed(st, s[|s| - 1]).parts == Singletons(s)
  {
    SingletonsSnoc(s);
    var c := s[|s| - 1];
    if !(c == '"' && !st.escape) && !(c == '\\' && !st.escape) {
      WindowMissesKey(s);
      assert Feed(st, c) == CopyAndWatch(st, c);
    }
  }

  /** Without `"message":` the scan never enters message mode and copies each character as one part. */
  lemma {:induction false} PassThrough(s: string)
    requires !Contains(s, MessageKey)
    ensures !FeedAll(Initial, s).inMessage
    ensures FeedAll(Initial, s).parts == Singletons(s)
    decreases |s|
  {
    if s != [] {
      var p := s[..|s| - 1];
      if Contains(p, MessageKey) {
        OccursInInfix(s, 0, |s| - 1, MessageKey);
      }
      PassThrough(p);
      PassThroughStep(FeedAll(Initial, p), s);
    }
  }

  /** Input that never contains `"message":` comes back unchanged. */
  lemma UnchangedWithoutMessageKey(s: string)
    requires !Contains(s, MessageKey)
    ensures RepairedEvenWorse(s) == s
  {
    PassThrough(s);
    JoinSingletons(s);
  }

  /** The buffer's characters outside a string: letters, digits, whitespace and the kept punctuation. */
  function KeepOutsideString(t: string): string
  {
    if t == [] then [] else KeepOutsideString(t[..|t| - 1]) + (if Buffered(false, t[|t| - 1]) then [t[|t| - 1]] else [])
  }

  /**
   * In message mode the output is frozen: characters other than `\` and `}` change only the buffer,
   * unescaped quotes only flip `inString`, and nothing is written. A buffer never followed by `}`
   * is therefore dropped.
   */
  lemma {:induction false} MessageModeFreezesOutput(st: RepairState, t: string)
    requires st.inMessage && !st.escape
    requires '\\' !in t && '}' !in t
    ensures var e := FeedAll(st, t);
      && e.inMessage && !e.escape && e.parts == st.parts
      && st.messageContent <= e.messageContent
      && '"' !in e.messageContent[|st.messageContent|..]
    decreases |t|
  {
    if t != [] {
      var p := t[..|t| - 1];
      assert forall c :: c in p ==> c in t;
      MessageModeFreezesOutput(st, p);
      var m := FeedAll(st, p);
      var e := FeedAll(st, t);
      assert e.messageContent[|st.messageContent|..] == m.messageContent[|st.messageContent|..] + e.messageContent[|m.messageContent|..];
    }
  }

  /**
   * In message mode, until a `}` comes, the output gains only the backslashes the scan copies
   * straight through; whatever was buffered reaches the output only through a flush.
   */
  lemma {:induction false} MessageModeEmitsOnlyBackslashes(st: RepairState, t: string)
    requires st.inMessage
    requires '}' !in t
    ensures var e := FeedAll(st, t);
      && e.inMessage && st.parts <= e.parts
      && forall k :: |st.parts| <= k < |e.parts| ==> e.parts[k] == "\\"
    decreases |t|
  {
    if t != [] {
      var p := t[..|t| - 1];
      assert forall c :: c in p ==> c in t;
      MessageModeEmitsOnlyBackslashes(st, p);
    }
  }

  /** With no quote in the fragment, the buffer gains exactly the characters it keeps. */
  lemma {:induction false} MessageBufferGrowth(st: RepairState, t: string)
    requires st.inMessage && !st.escape
    requires '\\' !in t && '}' !in t && '"' !in t
    ensures var e := FeedAll(st, t);
      && e.inMessage && !e.escape && e.parts == st.parts && e.inString == st.inString
      && e.messageContent == st.messageContent + (if st.inString then t else KeepOutsideString(t))
    decreases |t|
  {
    if t != [] {
      var p, c := t[..|t| - 1], t[|t| - 1];
      assert forall x :: x in p ==> x in t;
      MessageBufferGrowth(st, p);
      SnocLast(t);
      Assoc(st.messageContent, p, [c]);
      Assoc(st.messageContent, KeepOutsideString(p), if Buffered(false, c) then [c] else []);
    }
  }

  /**
   * The consolidation: from message mode, a fragment without quotes, backslashes or braces,
   * followed by `}`, is written as one quoted string holding the buffered characters,
   * followed by `}`, and message mode ends.
   */
  lemma ConsolidatesMessage(st: RepairState, t: string)
    requires st.inMessage && !st.escape
    requires '\\' !in t && '}' !in t && '"' !in t
    ensures var e := FeedAll(st, t + "}");
      && !e.inMessage
      && e.parts == st.parts + [Flush(st.messageContent + (if st.inString then t else KeepOutsideString(t))), "}"]
  {
    MessageBufferGrowth(st, t);
    FeedAllAppend(st, t, "}");
    assert FeedAll(FeedAll(st, t), "}") == Feed(FeedAll(st, t), '}') by {
      assert "}"[..0] == [];
    }
  }

  /** The flushed message literal holds no raw line feed. */
  lemma FlushHasNoNewline(content: string)
    ensures '\n' !in Flush(content)
  {
    ReplaceCharRemovesIt(content, '\n', ' ');
  }

  /** `repair_even_worse_json`: the source's loop over the characters. */
  method RepairEvenWorseJson(s: string) returns (r: string)
    ensures r == RepairedEvenWorse(s)
  {
    var inMessage := false;
    var inString := false;
    var escape := false;
    var messageContent: string := [];
    var newJsonParts: seq<string> := [];
    var i := 0;
    while i < |s|
      invariant 0 <= i <= |s|
      invariant RepairState(inMessage, inString, escape, messageContent, newJsonParts) == FeedAll(Initial, s[..i])
    {
      assert s[..i + 1][..i] == s[..i];
      inMessage, inString, escape, messageContent, newJsonParts :=
        ScanStep(inMessage, inString, escape, messageContent, newJsonParts, s[i]);
      i := i + 1;
    }
    assert s[..|s|] == s;
    r := Join(newJsonParts);
  }

  /** The body of the source's loop for one character `c`, on the scan's five variables. */
  method ScanStep(inMessage: bool, inString: bool, escape: bool, messageContent: string, newJsonParts: seq<string>, c: char)
    returns (inMessage': bool, inString': bool, escape': bool, messageContent': string, newJsonParts': seq<string>)
    ensures RepairState(inMessage', inString', escape', messageContent', newJsonParts')
      == Feed(RepairState(inMessage, inString, escape, messageContent, newJsonParts), c)
  {
    inMessage', inString', escape', messageContent', newJsonParts' := inMessage, inString, escape, messageContent, newJsonParts;
    if c == '"' && !escape {
      inString' := !inString;
      if !inMessage {
        newJsonParts' := newJsonParts + [[c]];
      }
    } else if c == '\\' && !escape {
      escape' := true;
      newJsonParts' := newJsonParts + [[c]];
    } else {
      if escape {
        escape' := false;
      }
      if inMessage {
        if c == '}' {
          newJsonParts' := newJsonParts + [Flush(messageContent)];
          newJsonParts' := newJsonParts' + [[c]];
          inMessage' := false;
        } else if inString || IsAlnum(c) || IsSpace(c) || c in KeptPunctuation {
          messageContent' := messageContent + [c];
        }
      } else {
        newJsonParts' := newJsonParts + [[c]];
        if Contains(Join(LastParts(newJsonParts')), MessageKey) {
          inMessage' := true;
          messageContent' := [];
        }
      }
    }
  }
}

=== FILE: normalizers.dfy ===
/**
 * The two text normalisers of json_parser.py: `clean_json_string_extra_backslash`, which keeps
 * replacing `\\` by `\` until none is left, and `replace_escaped_underscores`, which turns `\_`
 * into `_`.
 */
module Normalizers {
  import opened Text

  const DoubleBackslash: string := "\\\\"
  const Backslash: string := "\\"
  const EscapedUnderscore: string := "\\_"
  const Underscore: string := "_"

  /** No two consecutive backslashes anywhere in `t`. */
  predicate NoDoubleBackslash(t: string) {
    forall i :: 0 <= i < |t| - 1 ==> !(t[i] == '\\' && t[i + 1] == '\\')
  }

  lemma ContainsDoubleBackslash(t: string)
    ensures Contains(t, DoubleBackslash) <==> !NoDoubleBackslash(t)
  {
    if !NoDoubleBackslash(t) {
      var i :| 0 <= i < |t| - 1 && t[i] == '\\' && t[i + 1] == '\\';
      assert OccursAt(t, DoubleBackslash, i);
    }
    if Contains(t, DoubleBackslash) {
      var i: nat :| OccursAt(t, DoubleBackslash, i);
      assert t[i..i + 2][0] == t[i] && t[i..i + 2][1] == t[i + 1];
    }
  }

  /** Reference meaning of the rewrite loop: every run of backslashes shrinks to a single backslash. */
  function SquashBackslashRuns(s: string): string
  {
    if s == [] then []
    else if |s| >= 2 && s[0] == '\\' && s[1] == '\\' then SquashBackslashRuns(s[1..])
    else [s[0]] + SquashBackslashRuns(s[1..])
  }

  lemma {:induction false} SquashKeepsHead(s: string)
    requires s != []
    ensures SquashBackslashRuns(s) != [] && SquashBackslashRuns(s)[0] == s[0]
  {
    if |s| >= 2 && s[0] == '\\' && s[1] == '\\' {
      SquashKeepsHead(s[1..]);
    }
  }

  lemma {:induction false} SquashLeavesNoDoubleBackslash(s: string)
    ensures NoDoubleBackslash(SquashBackslashRuns(s))
  {
    if s == [] {
    } else if |s| >= 2 && s[0] == '\\' && s[1] == '\\' {
      SquashLeavesNoDoubleBackslash(s[1..]);
    } else {
      SquashLeavesNoDoubleBackslash(s[1..]);
      var rest := SquashBackslashRuns(s[1..]);
      if s[1..] != [] {
        SquashKeepsHead(s[1..]);
      }
      assert SquashBackslashRuns(s) == [s[0]] + rest;
    }
  }

  lemma {:induction false} SquashFixesClean(s: string)
    requires NoDoubleBackslash(s)
    ensures SquashBackslashRuns(s) == s
  {
    if s != [] {
      SquashFixesClean(s[1..]);
    }
  }

  lemma {:induction false} ReplaceKeepsHead(s: string)
    requires s != []
    ensures ReplaceAll(s, DoubleBackslash, Backslash) != []
    ensures ReplaceAll(s, DoubleBackslash, Backslash)[0] == s[0]
  {
  }

  /** One round of `s.replace("\\\\", "\\")` does not change the squashed form. */
  lemma {:induction false} SquashAbsorbsReplace(s: string)
    ensures SquashBackslashRuns(ReplaceAll(s, DoubleBackslash, Backslash)) == SquashBackslashRuns(s)
    decreases |s|
  {
    var r := ReplaceAll(s, DoubleBackslash, Backslash);
    if |s| < 2 {
    } else if s[..2] == DoubleBackslash {
      var rest := s[2..];
      assert s[0] == '\\' && s[1] == '\\';
      assert r == Backslash + ReplaceAll(rest, DoubleBackslash, Backslash);
      SquashAbsorbsReplace(rest);
      assert s[1..][1..] == rest;
      if rest != [] {
        ReplaceKeepsHead(rest);
      }
    } else {
      assert r == [s[0]] + ReplaceAll(s[1..], DoubleBackslash, Backslash);
      SquashAbsorbsReplace(s[1..]);
      if s[0] == '\\' {
        ReplaceKeepsHead(s[1..]);
        assert s[1] != '\\';
      }
    }
  }

  /**
   * `clean_json_string_extra_backslash`: while `\\` occurs, replace every `\\` by `\`.
   * The loop ends because each round shortens the string, and it leaves every run of
   * backslashes as a single backslash.
   */
  method CleanJsonStringExtraBackslash(s: string) returns (r: string)
    ensures r == SquashBackslashRuns(s)
    ensures !Contains(r, DoubleBackslash)
    ensures !Contains(s, DoubleBackslash) ==> r == s
  {
    r := s;
    while Contains(r, DoubleBackslash)
      invariant SquashBackslashRuns(r) == SquashBackslashRuns(s)
      decreases |r|
    {
      SquashAbsorbsReplace(r);
      r := ReplaceAll(r, DoubleBackslash, Backslash);
    }
    ContainsDoubleBackslash(r);
    SquashFixesClean(r);
    ContainsDoubleBackslash(s);
    if NoDoubleBackslash(s) {
      SquashFixesClean(s);
    }
  }

  /** `replace_escaped_underscores`: `s.replace("\\_", "_")`. */
  function ReplaceEscapedUnderscores(s: string): (r: string)
    ensures !Contains(s, EscapedUnderscore) ==> r == s
    ensures |r| <= |s|
  {
    ReplaceAll(s, EscapedUnderscore, Underscore)
  }

  /** Reference meaning: drop exactly the backslashes that stand right before an underscore. */
  function DropBackslashesBeforeUnderscore(s: string): string
  {
    if s == [] then []
    else if |s| >= 2 && s[0] == '\\' && s[1] == '_' then DropBackslashesBeforeUnderscore(s[1..])
    else [s[0]] + DropBackslashesBeforeUnderscore(s[1..])
  }

  /**
   * Since `\_` cannot overlap itself, the left-to-right replacement removes every backslash
   * that precedes an underscore and keeps every other character, in order.
   */
  lemma {:induction false} UnderscoreReplacementDropsEscapes(s: string)
    ensures ReplaceEscapedUnderscores(s) == DropBackslashesBeforeUnderscore(s)
    decreases |s|
  {
    if |s| < 2 {
    } else if s[..2] == EscapedUnderscore {
      assert s[0] == '\\' && s[1] == '_';
      UnderscoreReplacementDropsEscapes(s[2..]);
      assert s[1..][1..] == s[2..];
    } else {
      UnderscoreReplacementDropsEscapes(s[1..]);
    }
  }

  /** Not idempotent: `\\_` becomes `\_`, which a second pass turns into `_`. */
  lemma UnderscoreReplacementNotIdempotent()
    ensures ReplaceEscapedUnderscores("\\\\_") == "\\_"
    ensures ReplaceEscapedUnderscores(ReplaceEscapedUnderscores("\\\\_")) == "_"
  {
    UnderscoreReplacementDropsEscapes("\\\\_");
    UnderscoreReplacementDropsEscapes("\\_");
    assert "\\\\_"[1..] == "\\_";
    assert "\\_"[1..] == "_";
  }
}

=== FILE: repair_cascade.dfy ===
/**
 * `clean_json`: thirteen "patch, then parse" strategies tried in a fixed order; the first one
 * that does not fail gives the result, and if all fail the cascade fails.
 */
module RepairCascade {
  import opened Outcomes
  import opened JsonValue
  import opened Text
  import opened Normalizers
  import opened BracketScanner
  import opened LineFeedRepair
  import opened MessageRepair
  import opened SendMessageExtractor

  /** The strategies, named by the patch each applies before parsing. */
  datatype Strategy =
    | AsIs                  // json_loads(output)
    | CloseOne              // ... + "}"
    | CloseTwo              // ... + "}}"
    | CloseQuoteTwo         // ... + "\"}}"
    | TrimCloseOne          // strip, drop trailing commas, + "}"
    | TrimCloseTwo          // strip, drop trailing commas, + "}}"
    | TrimCloseQuoteTwo     // strip, drop trailing commas, + "\"}}"
    | EscapeLineFeeds       // repair_json_string
    | FoldMessage           // repair_even_worse_json
    | FirstObject           // extract_first_json(output + "}}")
    | SendMessagePattern    // clean_and_interpret_send_message_json
    | UnescapeUnderscores   // replace_escaped_underscores
    | FirstObjectUnescaped  // extract_first_json(replace_escaped_underscores(output) + "}}")

  const Strategies: seq<Strategy> := [
    AsIs, CloseOne, CloseTwo, CloseQuoteTwo,
    TrimCloseOne, TrimCloseTwo, TrimCloseQuoteTwo,
    EscapeLineFeeds, FoldMessage, FirstObject,
    SendMessagePattern, UnescapeUnderscores, FirstObjectUnescaped]

  /** The inner-thoughts key as configured, the keys accepted, and the default. */
  datatype KwargConfig = KwargConfig(configured: string, valid: set<string>, fallback: string)

  /** `output.strip().rstrip(",")`. */
  function Trimmed(raw: string): (r: string)
    ensures r <= Strip(raw)
    ensures r == [] || r[|r| - 1] != ','
    ensures r == [] || !IsSpace(r[0])
  {
    StripTrims(raw);
    RStripChar(Strip(raw), ',')
  }

  /** What one strategy returns or raises on `raw`. */
  function Attempt(st: Strategy, raw: string, loads: string -> Option<Json>, cfg: KwargConfig): (r: Result<Json, ParseError>)
    ensures r.Err? && (st == FirstObject || st == FirstObjectUnescaped) ==>
      r.error == NoBalancedObject || r.error == BalancedObjectUndecodable
    ensures r.Err? && st == SendMessagePattern ==> r.error == SendMessagePatternMissing
    ensures r.Err? && st !in {FirstObject, FirstObjectUnescaped, SendMessagePattern} ==> r.error == JsonDecodeError
  {
    match st
    case AsIs => Loads(loads, raw)
    case CloseOne => Loads(loads, raw + "}")
    case CloseTwo => Loads(loads, raw + "}}")
    case CloseQuoteTwo => Loads(loads, raw + "\"}}")
    case TrimCloseOne => Loads(loads, Trimmed(raw) + "}")
    case TrimCloseTwo => Loads(loads, Trimmed(raw) + "}}")
    case TrimCloseQuoteTwo => Loads(loads, Trimmed(raw) + "\"}}")
    case EscapeLineFeeds => Loads(loads, Repaired(raw))
    case FoldMessage => Loads(loads, RepairedEvenWorse(raw))
    case FirstObject => ExtractFirstJsonResult(raw + "}}", loads)
    case SendMessagePattern => CleanAndInterpretSendMessageJson(raw, cfg.configured, cfg.valid, cfg.fallback)
    case UnescapeUnderscores => Loads(loads, ReplaceEscapedUnderscores(raw))
    case FirstObjectUnescaped => ExtractFirstJsonResult(ReplaceEscapedUnderscores(raw) + "}}", loads)
  }

  /** Every strategy's outcome on `raw`, as one value. */
  function Attempts(raw: string, loads: string -> Option<Json>, cfg: KwargConfig): Strategy -> Result<Json, ParseError>
  {
    st => Attempt(st, raw, loads, cfg)
  }

  /**
   * The cascade from the `i`-th strategy on: the first strategy at or after `i` that succeeds
   * gives the result, every one before it having failed.
   */
  function CascadeFrom(sts: seq<Strategy>, i: nat, attempt: Strategy -> Result<Json, ParseError>): (r: Result<Json, ParseError>)
    requires i <= |sts|
    ensures r.Err? <==> forall j :: i <= j < |sts| ==> attempt(sts[j]).Err?
    ensures r.Err? ==> r.error == CascadeExhausted
    ensures r.Ok? ==> exists j ::
      && i <= j < |sts|
      && r == attempt(sts[j])
      && forall k :: i <= k < j ==> attempt(sts[k]).Err?
    decreases |sts| - i
  {
    if i == |sts| then Err(CascadeExhausted)
    else
      var r := attempt(sts[i]);
      if r.Ok? then r else CascadeFrom(sts, i + 1, attempt)
  }

  /** What `clean_json` returns or raises: the first strategy's success, or exhaustion when all fail. */
  function Cascade(raw: string, loads: string -> Option<Json>, cfg: KwargConfig): (r: Result<Json, ParseError>)
    ensures r.Err? <==> forall j :: 0 <= j < |Strategies| ==> Attempt(Strategies[j], raw, loads, cfg).Err?
    ensures r.Err? ==> r.error == CascadeExhausted
    ensures r.Ok? ==> exists j ::
      && 0 <= j < |Strategies|
      && r == Attempt(Strategies[j], raw, loads, cfg)
      && forall k :: 0 <= k < j ==> Attempt(Strategies[k], raw, loads, cfg).Err?
    ensures loads(raw).Some? ==> r == Ok(loads(raw).value)
  {
    CascadeFrom(Strategies, 0, Attempts(raw, loads, cfg))
  }

  /** A run of failing strategies can be skipped. */
  lemma {:induction false} SkipFailures(sts: seq<Strategy>, i: nat, k: nat, attempt: Strategy -> Result<Json, ParseError>)
    requires i <= k <= |sts|
    requires forall j :: i <= j < k ==> attempt(sts[j]).Err?
    ensures CascadeFrom(sts, i, attempt) == CascadeFrom(sts, k, attempt)
    decreases k - i
  {
    if i < k {
      SkipFailures(sts, i + 1, k, attempt);
    }
  }

  /** One strategy, as the source's lambda calls the repair functions. */
  method ApplyStrategy(st: Strategy, raw: string, loads: string -> Option<Json>, cfg: KwargConfig)
    returns (r: Result<Json, ParseError>)
    ensures r == Attempt(st, raw, loads, cfg)
  {
    match st {
      case EscapeLineFeeds =>
        var patched := RepairJsonString(raw);
        r := Loads(loads, patched);
      case FoldMessage =>
        var patched := RepairEvenWorseJson(raw);
        r := Loads(loads, patched);
      case FirstObject =>
        r := ExtractFirstJson(raw + "}}", loads);
      case FirstObjectUnescaped =>
        r := ExtractFirstJson(ReplaceEscapedUnderscores(raw) + "}}", loads);
      case _ =>
        r := Attempt(st, raw, loads, cfg);
    }
  }

  /** `clean_json`: the loop over the strategy list, returning at the first success. */
  method CleanJson(raw: string, loads: string -> Option<Json>, cfg: KwargConfig) returns (r: Result<Json, ParseError>)
    ensures r == Cascade(raw, loads, cfg)
  {
    r := FirstSuccess(raw, loads, cfg, Attempts(raw, loads, cfg));
  }

  /** The strategy loop, over the outcomes `attempts` that the strategies produce one by one. */
  method FirstSuccess(raw: string, loads: string -> Option<Json>, cfg: KwargConfig, ghost attempts: Strategy -> Result<Json, ParseError>)
    returns (r: Result<Json, ParseError>)
    requires forall st :: attempts(st) == Attempt(st, raw, loads, cfg)
    ensures r == CascadeFrom(Strategies, 0, attempts)
  {
    var i := 0;
    while i < |Strategies|
      invariant 0 <= i <= |Strategies|
      invariant CascadeFrom(Strategies, i, attempts) == CascadeFrom(Strategies, 0, attempts)
    {
      var attempt := ApplyStrategy(Strategies[i], raw, loads, cfg);
      if attempt.Ok? {
        return attempt;
      }
      i := i + 1;
    }
    r := Err(CascadeExhausted);
  }
}

=== FILE: send_message_extractor.dfy ===
/**
 * `clean_and_interpret_send_message_json`: the last-resort extractor. It strips non-ASCII
 * characters, then looks for three patterns: `"function":` followed by `"send_message"`, the
 * inner-thoughts field and the `"message"` field, each field being `"key":`, optional whitespace,
 * then a quoted run of one or more non-quote characters.
 */
module SendMessageExtractor {
  import opened Outcomes
  import opened JsonValue
  import opened Text
  import opened BracketScanner

  const SendMessage: string := "send_message"
  const FunctionHead: string := "\"function\":"
  const QuotedSendMessage: string := "\"send_message\""
  const MessageField: string := "message"
  const InnerThoughtsKey: string := "inner_thoughts"

  predicate IsAscii(c: char) {
    (c as int) < 128
  }

  /** `re.sub(r"[^\x00-\x7F]+", "", s)`: keep the ASCII characters, in order. */
  function StripNonAscii(s: string): (r: string)
    ensures |r| <= |s|
    ensures forall i :: 0 <= i < |r| ==> IsAscii(r[i])
    ensures (forall i :: 0 <= i < |s| ==> IsAscii(s[i])) ==> r == s
    decreases |s|
  {
    if s == [] then []
    else
      var rest := StripNonAscii(s[1..]);
      if IsAscii(s[0]) then [s[0]] + rest else rest
  }

  /** Length of the longest prefix of `t` holding no quote. */
  function QuoteFreeRun(t: string): (n: nat)
    ensures n <= |t|
    ensures forall i :: 0 <= i < n ==> t[i] != '"'
    ensures n < |t| ==> t[n] == '"'
  {
    if t == [] || t[0] == '"' then 0 else 1 + QuoteFreeRun(t[1..])
  }

  /**
   * `\s*"([^"]+)"` matches at index `j` of `s` with captured group `s[a..b]`: whitespace from `j`
   * up to an opening quote at `a - 1`, a non-empty quote-free run, and a closing quote at `b`.
   */
  predicate QuotedGroupAt(s: string, j: nat, a: nat, b: nat) {
    && j < a < b < |s|
    && (forall m :: j <= m < a - 1 ==> IsSpace(s[m]))
    && s[a - 1] == '"' && s[b] == '"'
    && (forall m :: a <= m < b ==> s[m] != '"')
  }

  /**
   * `\s*"([^"]+)"` from index `j` of `s`: the span `(a, b)` of the captured group, or None.
   * The group is non-empty, quote-free, and enclosed in quotes.
   */
  function QuotedAfterSpaces(s: string, j: nat): (r: Option<(nat, nat)>)
    requires j <= |s|
    ensures r.Some? ==> j < r.value.0 < r.value.1 < |s|
    ensures r.Some? ==> s[r.value.0 - 1] == '"' && s[r.value.1] == '"'
    ensures r.Some? ==> forall m :: r.value.0 <= m < r.value.1 ==> s[m] != '"'
    ensures r.Some? ==> QuotedGroupAt(s, j, r.value.0, r.value.1)
  {
    var k := j + LeadingSpaces(s[j..]);
    if k < |s| && s[k] == '"' then
      var t := s[k + 1..];
      var n := QuoteFreeRun(t);
      if n >= 1 && k + 1 + n < |s| then
        assert s[k + 1 + n] == t[n];
        assert forall m :: k + 1 <= m < k + 1 + n ==> s[m] == t[m - (k + 1)];
        assert forall m :: j <= m < k ==> s[m] == s[j..][m - j];
        Some((k + 1, k + 1 + n))
      else None
    else None
  }

  /** The group pattern has at most one match at `j`, and the scan finds it: None means no match. */
  lemma QuotedAfterSpacesComplete(s: string, j: nat, a: nat, b: nat)
    requires QuotedGroupAt(s, j, a, b)
    ensures QuotedAfterSpaces(s, j) == Some((a, b))
  {
    var n := LeadingSpaces(s[j..]);
    assert forall m :: 0 <= m < a - 1 - j ==> s[j..][m] == s[j + m];
    assert s[j..][a - 1 - j] == s[a - 1];
    assert n == a - 1 - j;
    var t := s[a..];
    assert forall m :: 0 <= m < b - a ==> t[m] == s[a + m];
    assert t[b - a] == s[b];
    QuoteFreeRunIs(t, b - a);
  }

  /** The quote-free run ends at the first quote. */
  lemma {:induction false} QuoteFreeRunIs(t: string, n: nat)
    requires n < |t| && t[n] == '"'
    requires forall m :: 0 <= m < n ==> t[m] != '"'
    ensures QuoteFreeRun(t) == n
  {
    if n > 0 {
      assert forall m :: 0 <= m < n - 1 ==> t[1..][m] == t[m + 1];
      QuoteFreeRunIs(t[1..], n - 1);
    }
  }

  /** `"key":`, the literal head of the field pattern. */
  function FieldHead(key: string): (h: string)
    ensures |h| == |key| + 3
  {
    "\"" + key + "\":"
  }

  /**
   * The field pattern `"key":\s*"([^"]+)"` matched at index `i` of `s`: the span `(a, b)` of the
   * captured group, or None when the pattern does not match there.
   */
  function FieldMatchAt(s: string, i: nat, key: string): (r: Option<(nat, nat)>)
    ensures r.Some? ==> OccursAt(s, FieldHead(key), i)
    ensures r.Some? ==> i < r.value.0 < r.value.1 < |s|
    ensures r.Some? ==> s[r.value.0 - 1] == '"' && s[r.value.1] == '"'
    ensures r.Some? ==> forall m :: r.value.0 <= m < r.value.1 ==> s[m] != '"'
    ensures r.Some? ==> QuotedGroupAt(s, i + |key| + 3, r.value.0, r.value.1)
  {
    if OccursAt(s, FieldHead(key), i) then QuotedAfterSpaces(s, i + |key| + 3) else None
  }

  /** `"key":` at `i` followed by a group match is exactly what `FieldMatchAt` reports. */
  lemma FieldMatchAtComplete(s: string, i: nat, key: string, a: nat, b: nat)
    requires OccursAt(s, FieldHead(key), i)
    requires QuotedGroupAt(s, i + |key| + 3, a, b)
    ensures FieldMatchAt(s, i, key) == Some((a, b))
  {
    FieldMatchAtHead(s, i, key);
    QuotedAfterSpacesComplete(s, i + |key| + 3, a, b);
  }

  /** Where the head occurs, the field match is the group match after it. */
  lemma FieldMatchAtHead(s: string, i: nat, key: string)
    requires OccursAt(s, FieldHead(key), i)
    ensures i + |key| + 3 <= |s|
    ensures FieldMatchAt(s, i, key) == QuotedAfterSpaces(s, i + |key| + 3)
  {
  }

  /** The leftmost index in `from..last` at which `matches` holds, the way `re.search` scans. */
  function Leftmost(matches: nat -> bool, from: nat, last: nat): (r: Option<nat>)
    requires from <= last
    ensures r.Some? ==> from <= r.value <= last && matches(r.value)
    ensures r.Some? ==> forall i :: from <= i < r.value ==> !matches(i)
    ensures r.None? ==> forall i :: from <= i <= last ==> !matches(i)
    decreases last - from
  {
    if matches(from) then Some(from)
    else if from == last then None
    else Leftmost(matches, from + 1, last)
  }

  /** `re.search` for the field pattern: the leftmost index at or after `from` where it matches. */
  function FirstFieldMatch(s: string, key: string, from: nat): (r: Option<nat>)
    requires from <= |s|
    ensures r.Some? ==> from <= r.value <= |s| && FieldMatchAt(s, r.value, key).Some?
    ensures r.Some? ==> forall i :: from <= i < r.value ==> FieldMatchAt(s, i, key).None?
    ensures r.None? ==> forall i :: from <= i <= |s| ==> FieldMatchAt(s, i, key).None?
  {
    var matches := (i: nat) => FieldMatchAt(s, i, key).Some?;
    assert forall i: nat :: matches(i) == FieldMatchAt(s, i, key).Some?;
    Leftmost(matches, from, |s|)
  }

  /** A quote-free slice holds no quote, and only characters of the text. */
  lemma QuoteFreeSlice(s: string, a: nat, b: nat)
    requires a <= b <= |s|
    requires forall m :: a <= m < b ==> s[m] != '"'
    ensures '"' !in s[a..b]
    ensures forall c :: c in s[a..b] ==> c in s
  {
    assert forall m :: 0 <= m < b - a ==> s[a..b][m] == s[a + m];
  }

  /**
   * The captured group of the leftmost field match, if any: found exactly when the pattern
   * matches somewhere, non-empty, quote-free and made of the text's characters.
   */
  function SearchField(s: string, key: string): (r: Option<string>)
    ensures r.Some? <==> exists i :: 0 <= i <= |s| && FieldMatchAt(s, i, key).Some?
    ensures r.Some? <==> FirstFieldMatch(s, key, 0).Some?
    ensures r.Some? ==>
      var g := FieldMatchAt(s, FirstFieldMatch(s, key, 0).value, key).value;
      r.value == s[g.0..g.1]
    ensures r.Some? ==> |r.value| >= 1 && '"' !in r.value
    ensures r.Some? ==> forall c :: c in r.value ==> c in s
  {
    match FirstFieldMatch(s, key, 0)
    case None => None
    case Some(i) =>
      var span := FieldMatchAt(s, i, key).value;
      QuoteFreeSlice(s, span.0, span.1);
      Some(s[span.0..span.1])
  }

  /** `"function":\s*"send_message"` matches at index `i`. */
  predicate FunctionMatchAt(s: string, i: nat) {
    && OccursAt(s, FunctionHead, i)
    && var j := i + |FunctionHead|;
      OccursAt(s, QuotedSendMessage, j + LeadingSpaces(s[j..]))
  }

  /** `re.search` for the function pattern from `from` on. */
  function FunctionPatternFrom(s: string, from: nat): (r: bool)
    requires from <= |s|
    ensures r <==> exists i :: from <= i <= |s| && FunctionMatchAt(s, i)
    decreases |s| - from
  {
    if FunctionMatchAt(s, from) then true
    else if from == |s| then false
    else FunctionPatternFrom(s, from + 1)
  }

  /** The configured inner-thoughts key if it is one of the valid ones, the default otherwise. */
  function ResolveKwarg(configured: string, valid: set<string>, fallback: string): (k: string)
    ensures configured in valid ==> k == configured
    ensures configured !in valid ==> k == fallback
  {
    if configured in valid then configured else fallback
  }

  /** The object the extractor builds from the two captured values. */
  function SendMessageCall(innerThoughts: string, message: string): Json
  {
    JObject(map[
      "function" := JString(SendMessage),
      "params" := JObject(map[InnerThoughtsKey := JString(innerThoughts), MessageField := JString(message)])])
  }

  /** `clean_and_interpret_send_message_json`. */
  function CleanAndInterpretSendMessageJson(s: string, configured: string, valid: set<string>, fallback: string)
    : (r: Result<Json, ParseError>)
    ensures var t := StripNonAscii(s);
      var kwarg := ResolveKwarg(configured, valid, fallback);
      r.Ok? <==> FunctionPatternFrom(t, 0) && SearchField(t, kwarg).Some? && SearchField(t, MessageField).Some?
    ensures r.Err? ==> r.error == SendMessagePatternMissing
  {
    var t := StripNonAscii(s);
    var kwarg := ResolveKwarg(configured, valid, fallback);
    var inner := SearchField(t, kwarg);
    var message := SearchField(t, MessageField);
    if FunctionPatternFrom(t, 0) && inner.Some? && message.Some? then
      Ok(SendMessageCall(inner.value, message.value))
    else
      Err(SendMessagePatternMissing)
  }

  /**
   * On success the extractor returns the `send_message` call built from the groups of the
   * leftmost inner-thoughts and message matches in the ASCII text, each non-empty, quote-free
   * and ASCII.
   */
  lemma ExtractedValues(s: string, configured: string, valid: set<string>, fallback: string)
    requires CleanAndInterpretSendMessageJson(s, configured, valid, fallback).Ok?
    ensures var t := StripNonAscii(s);
      var it := SearchField(t, ResolveKwarg(configured, valid, fallback)).value;
      var m := SearchField(t, MessageField).value;
      && CleanAndInterpretSendMessageJson(s, configured, valid, fallback).value == SendMessageCall(it, m)
      && |it| >= 1 && '"' !in it && (forall c :: c in it ==> IsAscii(c))
      && |m| >= 1 && '"' !in m && (forall c :: c in m ==> IsAscii(c))
  {
    var t := StripNonAscii(s);
    var it := SearchField(t, ResolveKwarg(configured, valid, fallback)).value;
    var m := SearchField(t, MessageField).value;
    assert forall c :: c in it ==> c in t;
    assert forall c :: c in m ==> c in t;
  }

  /**
   * The result's parameter keys are exactly `inner_thoughts` and `message`, whatever key the
   * inner thoughts were found under.
   */
  lemma ResultKeysAreFixed(s: string, configured: string, valid: set<string>, fallback: string)
    requires CleanAndInterpretSendMessageJson(s, configured, valid, fallback).Ok?
    ensures var j := CleanAndInterpretSendMessageJson(s, configured, valid, fallback).value;
      && j.JObject? && j.fields.Keys == {"function", "params"}
      && j.fields["function"] == JString(SendMessage)
      && j.fields["params"].JObject? && j.fields["params"].fields.Keys == {InnerThoughtsKey, MessageField}
  {
    var t := StripNonAscii(s);
    var it := SearchField(t, ResolveKwarg(configured, valid, fallback)).value;
    var m := SearchField(t, MessageField).value;
    SendMessageCallShape(it, m);
  }

  lemma SendMessageCallShape(it: string, m: string)
    ensures var j := SendMessageCall(it, m);
      && j.JObject? && j.fields.Keys == {"function", "params"}
      && j.fields["function"] == JString(SendMessage)
      && j.fields["params"].JObject? && j.fields["params"].fields.Keys == {InnerThoughtsKey, MessageField}
  {
  }
}

=== FILE: text.dfy ===
/** The Python string operations the parser relies on: `in`, `replace`, `strip`, `rstrip`, `"".join`, `isspace`, `isalnum`. */
module Text {

  /** `pat` occurs in `s` starting at index `i`. */
  predicate OccursAt(s: string, pat: string, i: nat) {
    i + |pat| <= |s| && s[i..i + |pat|] == pat
  }

  /** Python's `pat in s`. */
  function Contains(s: string, pat: string): (r: bool)
    ensures r <==> exists i: nat :: OccursAt(s, pat, i)
    decreases |s|
  {
    if |s| < |pat| then false
    else if s[..|pat|] == pat then (assert OccursAt(s, pat, 0); true)
    else
      assert !OccursAt(s, pat, 0);
      assert forall i: nat :: OccursAt(s, pat, i + 1) <==> OccursAt(s[1..], pat, i) by {
        forall i: nat ensures OccursAt(s, pat, i + 1) <==> OccursAt(s[1..], pat, i) {
          if i + 1 + |pat| <= |s| {
            assert s[1..][i..i + |pat|] == s[i + 1..i + 1 + |pat|];
          }
        }
      }
      assert forall i: nat :: OccursAt(s, pat, i) ==> i > 0 && OccursAt(s[1..], pat, i - 1) by {
        forall i: nat | OccursAt(s, pat, i) ensures i > 0 && OccursAt(s[1..], pat, i - 1) {
          assert i != 0;
          assert OccursAt(s, pat, (i - 1) + 1);
        }
      }
      Contains(s[1..], pat)
  }

  /** An occurrence inside an infix of `s` is an occurrence in `s`. */
  lemma OccursInInfix(s: string, a: nat, b: nat, pat: string)
    requires a <= b <= |s| && Contains(s[a..b], pat)
    ensures Contains(s, pat)
  {
    var i: nat :| OccursAt(s[a..b], pat, i);
    forall k | 0 <= k < |pat| ensures s[a + i + k] == pat[k] {
      assert s[a..b][i..i + |pat|][k] == pat[k];
    }
    assert s[a + i..a + i + |pat|] == pat;
    assert OccursAt(s, pat, a + i);
  }

  /** Python's `s.replace(pat, rep)`: every left-to-right, non-overlapping occurrence of `pat` becomes `rep`. */
  function ReplaceAll(s: string, pat: string, rep: string): (r: string)
    requires pat != []
    ensures !Contains(s, pat) ==> r == s
    ensures |rep| <= |pat| ==> |r| <= |s|
    ensures |rep| < |pat| && Contains(s, pat) ==> |r| < |s|
    decreases |s|
  {
    if |s| < |pat| then s
    else if s[..|pat|] == pat then rep + ReplaceAll(s[|pat|..], pat, rep)
    else [s[0]] + ReplaceAll(s[1..], pat, rep)
  }

  /** Replacing a character by a different one leaves none of it behind. */
  lemma {:induction false} ReplaceCharRemovesIt(s: string, a: char, b: char)
    requires a != b
    ensures a !in ReplaceAll(s, [a], [b])
    decreases |s|
  {
    if |s| >= 1 {
      ReplaceCharRemovesIt(s[1..], a, b);
    }
  }

  /** Python's `str.isspace()` for one character. */
  predicate IsSpace(c: char) {
    || c == ' '
    || ('\t' <= c <= '\r')
    || ('\U{1C}' <= c <= '\U{1F}')
    || c == '\U{85}' || c == '\U{A0}' || c == '\U{1680}'
    || ('\U{2000}' <= c <= '\U{200A}')
    || c == '\U{2028}' || c == '\U{2029}' || c == '\U{202F}' || c == '\U{205F}' || c == '\U{3000}'
  }

  /** Python's `str.isalnum()` for one character, restricted to ASCII letters and digits. */
  predicate IsAlnum(c: char) {
    ('a' <= c <= 'z') || ('A' <= c <= 'Z') || ('0' <= c <= '9')
  }

  /** Number of whitespace characters at the start of `s`. */
  function LeadingSpaces(s: string): (n: nat)
    ensures n <= |s|
    ensures forall i :: 0 <= i < n ==> IsSpace(s[i])
    ensures n < |s| ==> !IsSpace(s[n])
  {
    if s != [] && IsSpace(s[0]) then 1 + LeadingSpaces(s[1..]) else 0
  }

  /** Index where the run of trailing characters satisfying `drop` begins. */
  function TrailingRunStart(s: string, drop: char -> bool): (n: nat)
    ensures n <= |s|
    ensures forall i :: n <= i < |s| ==> drop(s[i])
    ensures n > 0 ==> !drop(s[n - 1])
  {
    if s != [] && drop(s[|s| - 1]) then TrailingRunStart(s[..|s| - 1], drop) else |s|
  }

  /** Python's `s.strip()`: the infix of `s` without leading and trailing whitespace. */
  function Strip(s: string): (r: string)
  {
    var t := s[LeadingSpaces(s)..];
    t[..TrailingRunStart(t, IsSpace)]
  }

  /** What `Strip` keeps and what it removes. */
  lemma StripTrims(s: string)
    ensures var r := Strip(s);
      && (r == [] || (!IsSpace(r[0]) && !IsSpace(r[|r| - 1])))
      && exists a: nat, b: nat ::
        && a <= b <= |s| && r == s[a..b]
        && (forall i :: 0 <= i < a ==> IsSpace(s[i]))
        && (forall i :: b <= i < |s| ==> IsSpace(s[i]))
  {
    var a := LeadingSpaces(s);
    var t := s[a..];
    var n := TrailingRunStart(t, IsSpace);
    assert Strip(s) == s[a..a + n];
    forall i | a + n <= i < |s| ensures IsSpace(s[i]) {
      assert s[i] == t[i - a];
    }
    if n > 0 {
      assert Strip(s)[0] == t[0];
      if n == |t| {
        assert !IsSpace(s[a]);
      }
    }
  }

  /** Python's `s.rstrip(c)` for a single character `c`. */
  function RStripChar(s: string, c: char): (r: string)
    ensures r <= s
    ensures forall i :: |r| <= i < |s| ==> s[i] == c
    ensures r == [] || r[|r| - 1] != c
  {
    s[..TrailingRunStart(s, x => x == c)]
  }

  /** Python's `"".join(parts)`. */
  function Join(parts: seq<string>): string
  {
    if parts == [] then [] else Join(parts[..|parts| - 1]) + parts[|parts| - 1]
  }

  lemma {:induction false} JoinAppend(a: seq<string>, b: seq<string>)
    ensures Join(a + b) == Join(a) + Join(b)
    decreases |b|
  {
    if b != [] {
      assert (a + b)[..|a + b| - 1] == a + b[..|b| - 1];
      JoinAppend(a, b[..|b| - 1]);
      assert (a + b)[|a + b| - 1] == b[|b| - 1];
      calc {
        Join(a + b);
        Join(a + b[..|b| - 1]) + b[|b| - 1];
        Join(a) + Join(b[..|b| - 1]) + b[|b| - 1];
        Join(a) + Join(b);
      }
    } else {
      assert a + b == a;
    }
  }

  // Small sequence facts, stated once so that proofs elsewhere need not rediscover them.

  lemma SplitAt<T>(s: seq<T>, k: nat)
    requires k <= |s|
    ensures s[..k] + s[k..] == s
  {
  }

  lemma SnocLast<T>(s: seq<T>)
    requires s != []
    ensures s[..|s| - 1] + [s[|s| - 1]] == s
  {
  }

  lemma Assoc<T>(a: seq<T>, b: seq<T>, c: seq<T>)
    ensures a + (b + c) == a + b + c
  {
  }
}
